=== FILE: README.md ===
# logging-context in Dafny

A model of the core of *logging-context*, a Java library that adds Log4j
diagnostic context around a method call and removes it afterwards. The library
keeps two per-thread stores: the nested diagnostic context (NDC, a stack of
labels) and the mapped diagnostic context (MDC, a string-to-string table).

The model covers the three cooperating parts of the core:

- **Builder accumulation** (`AbstractLogContextBuilder`). Nested labels
  (nulls dropped) and mapped entries (null or blank keys dropped,
  insertion-ordered, a repeated key overwrites) are collected before anything
  touches the live context.
- **Commit and reversal.** This part covers:
  - `Log4j12LogContextBuilder.get()`: it pushes every label and puts every entry;
  - the `MultiCloseableLogContext` it returns, with the undo actions in LIFO order;
  - `NDCCloseable.close()`: pop, then check the popped label;
  - the `LogContext` wrappers, `NO_OP_BUILDER` and the service-provider fallback.
- **Interception** (`LoggingContextAdvice.includeLoggingContext`). The
  annotations on the class, the method and the parameters become builder calls,
  in order: class labels, then method labels, then one mapped call per annotated
  parameter. The builder is committed, the body runs, and the context is always
  closed.

The model is functional. The live diagnostic context is an immutable `World`
value:

- the NDC is a `seq<string>` with its top at the end;
- the MDC is a `map<string, string>`;
- a log records every push, pop, put, remove and `close()` call, so that
  ordering claims can be stated.

Java `null` is `Option.None`. Thrown throwables are values; `Exception` and
`Error` are told apart because `catch (Exception e)` only catches the first.
Reflection is replaced by the metadata it would resolve (`MethodMeta`,
`ParamMeta`). The intercepted method body is a function from the context it
runs in to the context it leaves and its outcome.

| file | module | models |
|---|---|---|
| `java.dfy` | `Java` | nullable references, throwables, `String.trim`, `String.valueOf`, null filtering, `Collections.reverse` |
| `linked_map.dfy` | `LinkedMaps` | `LinkedHashMap` insertion order and `put` |
| `context_builder.dfy` | `ContextBuilder` | `AbstractLogContextBuilder` |
| `diagnostics.dfy` | `Diagnostics` | the Log4j 1.2 `NDC`/`MDC` stores and the operation log |
| `log_context.dfy` | `LogContexts` | `LogContext`, `MultiCloseableLogContext`, `NDCCloseable.close` |
| `log4j12.dfy` | `Log4j12` | `Log4j12LogContextBuilder.get` and the get/close round trip |
| `builders.dfy` | `Builders` | `LogContext.Builder`: provider lookup, `NO_OP_BUILDER`, chained calls |
| `advice.dfy` | `Advice` | `LoggingContextAdvice` |

## Model

| member | source | states |
|---|---|---|
| `Java.PresentSound` | logging-context-api/src/main/java/io/github/logcontext/AbstractLogContextBuilder.java:46 | every label kept by the null filter is a non-null element of the batch |
| `Java.PresentComplete` | logging-context-api/src/main/java/io/github/logcontext/AbstractLogContextBuilder.java:46 | every non-null element of the batch is kept by the filter |
| `Java.PresentAppend` | logging-context-api/src/main/java/io/github/logcontext/AbstractLogContextBuilder.java:43-47 | filtering distributes over concatenation of batches |
| `Java.PresentLift` | logging-context-api/src/main/java/io/github/logcontext/AbstractLogContextBuilder.java:46 | a batch without nulls passes the filter unchanged |
| `Java.TrimEmptyIffBlank` | logging-context-api/src/main/java/io/github/logcontext/AbstractLogContextBuilder.java:60 | `trim().isEmpty()` holds exactly when every character is `<= ' '` |
| `Java.ReverseAppend` | logging-context-log4j12/src/main/java/io/github/logcontext/log4j12/Log4j12LogContextBuilder.java:58 | reversing a concatenation reverses and swaps its parts |
| `LinkedMaps.Put` | logging-context-api/src/main/java/io/github/logcontext/AbstractLogContextBuilder.java:61 | the key maps to the new value, other keys are unchanged, an existing key keeps its position, a new key goes last |
| `LinkedMaps.PutOverwrites` | logging-context-api/src/main/java/io/github/logcontext/AbstractLogContextBuilder.java:61 | a second put of the same key is the same as putting only the later value |
| `ContextBuilder.Initial` | logging-context-api/src/main/java/io/github/logcontext/AbstractLogContextBuilder.java:31-34 | a new builder holds no labels and no entries |
| `ContextBuilder.AndNested` | logging-context-api/src/main/java/io/github/logcontext/AbstractLogContextBuilder.java:42-50 | existing labels are kept as a prefix; every added label comes from the batch; a null batch changes nothing; mapped entries are untouched |
| `ContextBuilder.AndNestedAppends` | logging-context-api/src/main/java/io/github/logcontext/AbstractLogContextBuilder.java:42-47 | a null-free batch is appended verbatim after the existing labels |
| `ContextBuilder.AndNestedSkipsNull` | logging-context-api/src/main/java/io/github/logcontext/AbstractLogContextBuilder.java:43-46 | a null inside a batch is dropped: the batch acts like its two halves added one after the other |
| `ContextBuilder.AndMapped` | logging-context-api/src/main/java/io/github/logcontext/AbstractLogContextBuilder.java:59-65 | a null or blank key changes nothing; any other key is put into the ordered map; the nested labels are untouched |
| `ContextBuilder.AndMappedLastWriteWins` | logging-context-api/src/main/java/io/github/logcontext/AbstractLogContextBuilder.java:59-62 | adding a key twice leaves only the later value, in the key's first position |
| `ContextBuilder.AndMappedAll` | logging-context-api/src/test/java/io/github/logcontext/AbstractLogContextBuilderTest.java:94-147 | `andMapped(map)` as a fold: the mapped values become the old ones overridden by the map's non-blank entries; the old key order stays a prefix; labels are untouched |
| `ContextBuilder.AndMappedAllCoversMap` | logging-context-api/src/test/java/io/github/logcontext/AbstractLogContextBuilderTest.java:94-107 | every non-blank key of the map ends up holding its value, and no other new key appears |
| `ContextBuilder.AndMappedAllOrderFree` | logging-context-aspect/src/main/java/io/github/logcontext/aop/LoggingContextAdvice.java:192-194 | the resulting values do not depend on the map's iteration order |
| `Diagnostics.InvokedAppend` | logging-context-api/src/main/java/io/github/logcontext/MultiCloseableLogContext.java:33-37 | the list of `close()` calls read off a log distributes over concatenation of logs |
| `LogContexts.CloseableLogContext` | logging-context-api/src/main/java/io/github/logcontext/LogContext.java:24-33 | a null closeable fails with `NullPointerException("closeable must not be null")`, and only a null one |
| `LogContexts.NewMultiCloseable` | logging-context-api/src/main/java/io/github/logcontext/MultiCloseableLogContext.java:27-29 | a null list fails with `NullPointerException("closeables must not be null")`, and only a null one |
| `LogContexts.CloseNdc` | logging-context-log4j12/src/main/java/io/github/logcontext/log4j12/NDCCloseable.java:24-28 | exactly one pop, which removes the top label if there is one; the close completes exactly when assertions are off or the popped label is the closeable's own; otherwise an `AssertionError` follows the pop |
| `LogContexts.CloseOne` | logging-context-api/src/main/java/io/github/logcontext/MultiCloseableLogContext.java:35-37 | closing one element records exactly one `close()` call on it; an MDC remover deletes its key and completes |
| `LogContexts.CloseAll` | logging-context-api/src/main/java/io/github/logcontext/MultiCloseableLogContext.java:32-42 | closing a list never lets an `Exception` escape and only appends to the log |
| `LogContexts.CloseAllInvokesAll` | logging-context-api/src/main/java/io/github/logcontext/MultiCloseableLogContext.java:33-37 | a close that completes has called `close()` once on every non-null element, in list order |
| `LogContexts.CloseAllStopsAtError` | logging-context-api/src/main/java/io/github/logcontext/MultiCloseableLogContext.java:38 | a close that ends in an `Error` has called `close()` on exactly the non-null elements of some prefix of the list ending in a non-null element; nothing after that element is closed |
| `LogContexts.ErrorAborts` | logging-context-api/src/main/java/io/github/logcontext/MultiCloseableLogContext.java:35-41 | only `Exception` is caught: when the elements before it close without an `Error`, an element whose `close()` throws an `Error` ends the close with exactly that element's result, and the elements after it are never closed |
| `LogContexts.ExceptionContinues` | logging-context-api/src/main/java/io/github/logcontext/MultiCloseableLogContext.java:35-41 | an `Exception` from an element is suppressed and does not stop the loop: after it, the rest of the list is closed from the context the throwing element left |
| `LogContexts.CloseAllAppend` | logging-context-api/src/main/java/io/github/logcontext/MultiCloseableLogContext.java:33-41 | closing `a + b` closes `a` then `b`, unless `a` ended in an `Error`, in which case `b` is never touched |
| `LogContexts.ExceptionsAreSuppressed` | logging-context-api/src/main/java/io/github/logcontext/MultiCloseableLogContext.java:38-40 | with the first and third of three closeables throwing an `Exception`, all three are closed and the close completes |
| `LogContexts.Close` | logging-context-api/src/main/java/io/github/logcontext/LogContext.java:26-32 | no log context lets an `Exception` escape; the no-op context does nothing; a wrapped closeable is closed exactly once, its `Exception` suppressed |
| `Log4j12.PushAll` | logging-context-log4j12/src/main/java/io/github/logcontext/log4j12/Log4j12LogContextBuilder.java:45-50 | the stack grows by exactly the labels in builder order; the MDC is untouched |
| `Log4j12.PutAll` | logging-context-log4j12/src/main/java/io/github/logcontext/log4j12/Log4j12LogContextBuilder.java:51-56 | the puts leave the stack alone and are logged in insertion order |
| `Log4j12.PutAllMdc` | logging-context-log4j12/src/main/java/io/github/logcontext/log4j12/Log4j12LogContextBuilder.java:54-55 | after the puts each key holds its value and every other key keeps its old value |
| `Log4j12.PutAllStoresMap` | logging-context-log4j12/src/main/java/io/github/logcontext/log4j12/Log4j12LogContextBuilder.java:51-56 | putting an ordered map's keys in order stores exactly that map over the old MDC |
| `Log4j12.Get` | logging-context-log4j12/src/main/java/io/github/logcontext/log4j12/Log4j12LogContextBuilder.java:42-60 | `get()` pushes all labels and then puts all entries; the returned context holds the MDC removers in reverse insertion order followed by the `NDCCloseable`s in reverse push order |
| `Log4j12.UndoOrder` | logging-context-log4j12/src/main/java/io/github/logcontext/log4j12/Log4j12LogContextBuilder.java:43-58 | reversing "closers, then removers" gives the removers reversed, then the closers reversed |
| `Log4j12.GetRepeats` | logging-context-log4j12/src/main/java/io/github/logcontext/log4j12/Log4j12LogContextBuilder.java:21-22 | `get()` does not consume the builder: a second call pushes and puts the same things again |
| `Log4j12.CloseRemovers` | logging-context-log4j12/src/main/java/io/github/logcontext/log4j12/Log4j12LogContextBuilder.java:56 | closing MDC removers deletes exactly their keys, in order, and completes |
| `Log4j12.ClosePoppers` | logging-context-log4j12/src/main/java/io/github/logcontext/log4j12/NDCCloseable.java:24-28 | `NDCCloseable`s whose labels are on top of the stack pop exactly those labels, each pop returning its own label, and complete |
| `Log4j12.PoppersKeepMdc` | logging-context-log4j12/src/main/java/io/github/logcontext/log4j12/NDCCloseable.java:24-28 | closing `NDCCloseable`s never touches the MDC, whatever the stack holds |
| `Log4j12.CloseUndoesGet` | logging-context-log4j12/src/main/java/io/github/logcontext/log4j12/Log4j12LogContextBuilder.java:42-59 | when the stack is as `get()` left it, closing completes, restores the stack, removes every mapped key (an overwritten value is not restored), and logs removals in reverse insertion order, then pops in reverse push order |
| `Log4j12.CloseAlwaysRemovesKeys` | logging-context-log4j12/src/main/java/io/github/logcontext/log4j12/Log4j12LogContextBuilder.java:56-58 | whatever the stack holds at close time, even if a pop check throws, every mapped key is removed |
| `Log4j12.GetCloseRoundTrip` | logging-context-log4j12/src/main/java/io/github/logcontext/log4j12/Log4j12LogContextBuilder.java:42-59 | `get()` then `close()` with nothing in between restores the stack exactly and leaves the old MDC without the mapped keys |
| `Log4j12.UndoPopsMirrorPushes` | logging-context-log4j12/src/main/java/io/github/logcontext/log4j12/Log4j12LogContextBuilder.java:58-59 | the pops of the undo log return the pushed labels in reverse order, one pop per label |
| `Builders.ProvidedBuilder` | logging-context-log4j12/src/main/java/io/github/logcontext/log4j12/spi/Log4j12LoggingContextServiceProvider.java:17-19 | a provider hands out a fresh, empty Log4j 1.2 builder |
| `Builders.Lookup` | logging-context-api/src/main/java/io/github/logcontext/LogContext.java:62-69 | the first provider's builder, and `NO_OP_BUILDER` exactly when there is no provider |
| `Builders.AndNested` | logging-context-api/src/main/java/io/github/logcontext/LogContext.java:128-131 | `NO_OP_BUILDER.andNested` returns itself for any batch; the Log4j 1.2 builder accumulates |
| `Builders.AndMapped` | logging-context-api/src/main/java/io/github/logcontext/LogContext.java:133-136 | `NO_OP_BUILDER.andMapped` returns itself for any key and value; the Log4j 1.2 builder accumulates |
| `Builders.AndMappedAll` | logging-context-aspect/src/main/java/io/github/logcontext/aop/LoggingContextAdvice.java:194 | `andMapped(map)` on `NO_OP_BUILDER` returns itself; on the Log4j 1.2 builder it folds the entries |
| `Builders.Get` | logging-context-api/src/main/java/io/github/logcontext/LogContext.java:138-141 | `NO_OP_BUILDER.get()` touches nothing and returns the no-op context; the Log4j 1.2 builder commits its labels and entries |
| `Builders.NestedContext` | logging-context-api/src/main/java/io/github/logcontext/LogContext.java:77-79 | `nestedContext(cs)` is a fresh builder holding exactly the non-null labels (none for a null batch), or `NO_OP_BUILDER` |
| `Builders.MappedContext` | logging-context-api/src/main/java/io/github/logcontext/LogContext.java:88-90 | `mappedContext(k, v)` is a fresh builder holding exactly `k -> v` (nothing for a null or blank key), or `NO_OP_BUILDER` |
| `Builders.NoOpIsInert` | logging-context-api/src/main/java/io/github/logcontext/LogContext.java:125-142 | `NO_OP_BUILDER` stays itself through any calls, and closing its context completes without touching anything |
| `Builders.Replay` | logging-context-aspect/src/main/java/io/github/logcontext/aop/LoggingContextAdvice.java:118-123 | a chain of calls keeps `NO_OP_BUILDER` as itself; on a Log4j 1.2 builder the labels grow by exactly those the calls add, in call order, and the mapped values take every accepted entry of the calls, a later entry for a key winning, provided map arguments are iterated in full |
| `Builders.ReplayAppend` | logging-context-aspect/src/main/java/io/github/logcontext/aop/LoggingContextAdvice.java:119-122 | replaying two chains of calls is replaying them one after the other |
| `Builders.MappedOfAppend` | logging-context-aspect/src/main/java/io/github/logcontext/aop/LoggingContextAdvice.java:118-123 | the entries stored by two chains of calls are those of the first overridden by those of the second |
| `Advice.ContextsOrDefault` | logging-context-aspect/src/main/java/io/github/logcontext/aop/LoggingContextAdvice.java:201-203 | the effective labels are never empty: the declared ones, or exactly the element's own name |
| `Advice.Labels` | logging-context-aspect/src/main/java/io/github/logcontext/aop/LoggingContextAdvice.java:139-164 | a class or method contributes labels exactly when it is annotated |
| `Advice.BindingOf` | logging-context-aspect/src/main/java/io/github/logcontext/aop/LoggingContextAdvice.java:177-184 | `@LoggingContext` wins over `@ExtractedContext`; a parameter with neither is ignored |
| `Advice.ExtractorFallback` | logging-context-aspect/src/main/java/io/github/logcontext/aop/LoggingContextAdvice.java:205-211 | when instantiating the extractor throws an `Exception`, the parameter yields no entries |
| `Advice.PrefixInjective` | logging-context-aspect/src/main/java/io/github/logcontext/aop/LoggingContextAdvice.java:213-215 | distinct keys stay distinct under the same prefix |
| `Advice.WithPrefix` | logging-context-aspect/src/main/java/io/github/logcontext/aop/LoggingContextAdvice.java:189-192 | each extracted key appears with the prefix in front and its value unchanged, and no other prefixed key appears |
| `Advice.WithPrefixKeys` | logging-context-aspect/src/main/java/io/github/logcontext/aop/LoggingContextAdvice.java:213-215 | no unprefixed key survives: every key is the prefix followed by an extracted key |
| `Advice.WithPrefixSize` | logging-context-aspect/src/main/java/io/github/logcontext/aop/LoggingContextAdvice.java:192 | the collected map has as many entries as the extracted one, so `toMap` never meets a duplicate key |
| `Advice.Prefixed` | logging-context-aspect/src/main/java/io/github/logcontext/aop/LoggingContextAdvice.java:188-193 | the prefix is applied exactly when it is non-null and not blank |
| `Advice.NamedParam` | logging-context-aspect/src/main/java/io/github/logcontext/aop/LoggingContextAdvice.java:177-183 | a `@LoggingContext` parameter maps its last label (its name if none) to `String.valueOf` of its argument |
| `Advice.ExtractedParam` | logging-context-aspect/src/main/java/io/github/logcontext/aop/LoggingContextAdvice.java:184-194 | an `@ExtractedContext` parameter adds exactly the extracted entries with the non-blank prefix in front of every key, all of them kept; with a null or blank prefix, the extracted entries unchanged |
| `Advice.ParamCalls` | logging-context-aspect/src/main/java/io/github/logcontext/aop/LoggingContextAdvice.java:174-199 | parameters add at most one call each and never a nested label |
| `Advice.UnannotatedParamsIgnored` | logging-context-aspect/src/main/java/io/github/logcontext/aop/LoggingContextAdvice.java:176-185 | parameters carrying neither annotation contribute no builder call |
| `Advice.ParamCallsAppend` | logging-context-aspect/src/main/java/io/github/logcontext/aop/LoggingContextAdvice.java:176 | parameters are processed in declaration order |
| `Advice.Calls` | logging-context-aspect/src/main/java/io/github/logcontext/aop/LoggingContextAdvice.java:118-123 | every nested call precedes every mapped call |
| `Advice.NestedOrder` | logging-context-aspect/src/main/java/io/github/logcontext/aop/LoggingContextAdvice.java:119-122 | the labels added are the class's followed by the method's, each in declared order |
| `Advice.MappedOfParamCalls` | logging-context-aspect/src/main/java/io/github/logcontext/aop/LoggingContextAdvice.java:174-199 | the builder calls the parameters produce store exactly the entries read off the parameters' annotations |
| `Advice.AccumulatedEntries` | logging-context-aspect/src/main/java/io/github/logcontext/aop/LoggingContextAdvice.java:118-123 | with the Log4j 1.2 provider, the builder committed for a method holds exactly the parameters' entries and nothing from the class or method annotations |
| `Advice.Surfaced` | logging-context-aspect/src/main/java/io/github/logcontext/aop/LoggingContextAdvice.java:118-126 | try-with-resources: the body's throw wins; after a normal return a throw from `close()` surfaces |
| `Advice.Intercept` | logging-context-aspect/src/main/java/io/github/logcontext/aop/LoggingContextAdvice.java:110-130 | a non-method join point is only proceeded; otherwise all accumulation comes first, then `get()`, the body, `close()`; a thrown outcome passes unchanged, and only an `Error` from closing can replace the outcome |
| `Advice.NoProviderIsTransparent` | logging-context-aspect/src/main/java/io/github/logcontext/aop/LoggingContextAdvice.java:116-126 | with no provider the interception leaves the diagnostic context to the body alone |
| `Advice.ScopeHasLabels` | logging-context-aspect/src/main/java/io/github/logcontext/aop/LoggingContextAdvice.java:118-125 | the body runs with the class's and then the method's labels pushed |
| `Advice.ScopeHasEntries` | logging-context-aspect/src/main/java/io/github/logcontext/aop/LoggingContextAdvice.java:118-125 | the body runs with the MDC the call started with, overridden by every parameter's entries: a `@LoggingContext` parameter's `String.valueOf` under its last label, an `@ExtractedContext` parameter's prefixed entries, a later parameter winning a shared key |
| `Advice.BalancedBodyRestores` | logging-context-aspect/src/main/java/io/github/logcontext/aop/LoggingContextAdvice.java:118-126 | after a body that leaves the stack as it found it, the stack is restored, every key a parameter contributed is removed from the MDC the body left, and the outcome passes through unchanged |

## Left out

- Reflection and AspectJ plumbing are left out: the pointcuts, `getMethod`, annotation lookup and `newInstance`. The model takes the metadata they resolve as input. A join point's arguments are assumed to match its parameters one to one, as AspectJ guarantees for method executions.
- `Log4j2LogContextBuilder` is left out, because the restore semantics of Log4j 2's `CloseableThreadContext` cannot be seen from this code.
- Service-provider classes, Spring wiring and the example applications are left out; a provider is a value that hands out a fresh builder.
- Builder chaining is modelled by value: `andNested` and `andMapped` return `this` in Java, while the model returns the updated builder, and a chain of calls is `Builders.Replay`.
- The NDC and MDC are per-thread in Log4j 1.2. The model threads a single store explicitly and has no concurrency.
- `NDC.pop()` on an empty stack is taken to return the empty string, as Log4j 1.2 does; Log4j itself is not part of this model.
- Null mapped values are left out: `ValueOf` never yields null, and an extractor's values are taken to be non-null strings.
- Throws on the accumulation path are left out. An extractor's `apply` and an argument's `toString()` are taken not to throw, and `apply` is taken not to return null. In Java such a throw, or the null map, escapes the advice before `get()` and the method body is not run. An `Error` from instantiating an extractor, which the advice does not catch, is left out for the same reason.
- The null check on annotation arrays in `getContextsOrDefault` is left out, since Java annotations cannot hold null arrays.
- The `NDCCloseable` constructor is left out because it only stores the label: an `NdcCloseable(label)` value has no effect on the store by construction.
- The map iteration order is an input. `andMapped(Map)` is called by the advice but is not declared in the builder classes modelled here, so it is modelled as a fold of `andMapped(k, v)` over the map's entries, visited in an order supplied by the caller. `Builders.Enumerates` requires that order to visit every key of the map, as Java's map iteration does. `ContextBuilder.AndMappedAllOrderFree` shows that any two orders visiting the same keys give the same values; only the insertion order of new keys depends on the order.
- The javadoc at `LogContext.java:46-53` claims two things that no builder here implements: nested duplicates are skipped, and pre-existing MDC keys are not removed. Both are left out. The model follows the code, which pushes duplicates and removes every key it put.
- `LogContexts.CloseOne` states nothing about the stack for an `NDCCloseable`; that behaviour is stated by `LogContexts.CloseNdc`, which it delegates to.
- `Log4j12.PutAll` states only the stack and the log; the MDC effect is stated by `Log4j12.PutAllMdc`.

## Findings

| source | as written | input that shows it | evidently intended | confidence | as-written member | corrected member |
|---|---|---|---|---|---|---|
| logging-context-api/src/test/java/io/github/logcontext/MultiCloseableLogContextTest.java:74-90 | the test expects `close()` to throw after two of its three closeables throw an `Exception`, while `MultiCloseableLogContext.close()` catches every `Exception` and returns normally | closeables `[throws Exception, completes, throws Exception]` | `close()` completes after closing all three, as `MultiCloseableLogContext.java:12-13,38-40` and `LogContext.java:36` promise; the test's expectation is what is wrong | medium, not executed | `LogContexts.ExceptionsAreSuppressed` | `LogContexts.CloseAll` |

=== FILE: advice.dfy ===
/**
 The around-advice `LoggingContextAdvice.includeLoggingContext`: for a method
 call it reads the `@LoggingContext` and `@ExtractedContext` annotations of the
 target class, the method and its parameters, feeds the resulting labels and
 entries to a builder, commits the builder with `get()`, runs the call, and
 closes the context whether the call returned or threw. Reflection is replaced
 by the metadata it would resolve.
 */
module Advice {
  import opened Java
  import opened ContextBuilder
  import opened Diagnostics
  import opened LogContexts
  import opened Builders

  // ---------------------------------------------------------------------------
  // Resolved annotation metadata
  // ---------------------------------------------------------------------------

  /** A `ContextExtractor`: the mapped entries to log for a parameter value. */
  type Extractor = Arg -> map<string, string>

  /** `@ExtractedContext(prefix, extractor)`; `extractor` is `None` when instantiating the extractor class throws an `Exception`. */
  datatype ExtractedDecl = ExtractedDecl(prefix: JString, extractor: Option<Extractor>)

  /**
   A method parameter: its name, the value of its `@LoggingContext` annotation
   (`None` when absent), and its `@ExtractedContext` annotation (`None` when absent).
   */
  datatype ParamMeta = ParamMeta(name: string, logging: Option<seq<string>>, extracted: Option<ExtractedDecl>)

  /** The role a parameter plays, after the annotation precedence is applied. */
  datatype Binding = Named(labels: seq<string>) | Extracted(decl: ExtractedDecl) | Plain

  /**
   The target class's simple name and `@LoggingContext` value, the method's
   name and `@LoggingContext` value (`None` when not annotated), and the parameters.
   */
  datatype MethodMeta = MethodMeta(
    className: string, classContext: Option<seq<string>>,
    methodName: string, methodContext: Option<seq<string>>,
    params: seq<ParamMeta>)

  /** A join point's signature: a method signature with its resolved metadata, or any other kind. */
  datatype Signature = MethodSignature(meta: MethodMeta) | OtherSignature

  /** The intercepted call: its signature and its runtime arguments. */
  datatype JoinPoint = JoinPoint(signature: Signature, args: seq<Arg>)

  /** A method join point carries one argument per declared parameter. */
  predicate ArgsMatch(jp: JoinPoint) {
    jp.signature.MethodSignature? ==> |jp.signature.meta.params| == |jp.args|
  }

  // ---------------------------------------------------------------------------
  // From annotations to builder calls
  // ---------------------------------------------------------------------------

  /** `getContextsOrDefault`: the annotation's labels, or the element's own name when it lists none. */
  function ContextsOrDefault(contexts: seq<string>, default: string): (r: seq<string>)
    ensures |r| > 0
    ensures |contexts| > 0 ==> r == contexts
    ensures |contexts| == 0 ==> r == [default]
  {
    if |contexts| > 0 then contexts else [default]
  }

  /** The labels an optional class or method annotation contributes: none when the element is not annotated. */
  function Labels(annotation: Option<seq<string>>, default: string): (r: seq<string>)
    ensures annotation.None? <==> |r| == 0
  {
    if annotation.Some? then ContextsOrDefault(annotation.value, default) else []
  }

  /** `@LoggingContext` on a parameter wins over `@ExtractedContext`; a parameter with neither is ignored. */
  function BindingOf(p: ParamMeta): (r: Binding)
    ensures p.logging.Some? ==> r == Named(p.logging.value)
    ensures p.logging.None? && p.extracted.Some? ==> r.Extracted? && r.decl == p.extracted.value
    ensures r.Plain? <==> p.logging.None? && p.extracted.None?
  {
    if p.logging.Some? then Named(p.logging.value)
    else if p.extracted.Some? then Extracted(p.extracted.value)
    else Plain
  }

  /** `getExtractor`: the declared extractor, or `NO_OP_EXTRACTOR` (always the empty map) when it cannot be instantiated. */
  function ExtractorOf(decl: ExtractedDecl): Extractor {
    if decl.extractor.Some? then decl.extractor.value else (a: Arg) => map[]
  }

  /** The extractor fallback yields no entries for any value. */
  lemma ExtractorFallback(decl: ExtractedDecl, a: Arg)
    ensures decl.extractor.None? ==> ExtractorOf(decl)(a) == map[]
    ensures decl.extractor.Some? ==> ExtractorOf(decl)(a) == decl.extractor.value(a)
  {
  }

  /** Two keys that differ keep differing once the same prefix is put in front of both. */
  lemma PrefixInjective(prefix: string, a: string, b: string)
    ensures prefix + a == prefix + b ==> a == b
  {
    if prefix + a == prefix + b {
      assert a == (prefix + a)[|prefix|..];
      assert b == (prefix + b)[|prefix|..];
    }
  }

  /** `withPrefixedContext` applied to every entry: each key gets `prefix` in front, values are kept. */
  function WithPrefix(prefix: string, m: map<string, string>): (r: map<string, string>)
    ensures forall k :: k in m <==> prefix + k in r
    ensures forall k :: k in m ==> r[prefix + k] == m[k]
  {
    forall a, b | a in m && prefix + a == prefix + b ensures a == b {
      PrefixInjective(prefix, a, b);
    }
    map k | k in m :: prefix + k := m[k]
  }

  /** No unprefixed key survives: every key of the prefixed map is the prefix followed by an extracted key. */
  lemma WithPrefixKeys(prefix: string, m: map<string, string>)
    ensures forall k' :: k' in WithPrefix(prefix, m) ==> |prefix| <= |k'| && k'[..|prefix|] == prefix && k'[|prefix|..] in m
  {
    var r := WithPrefix(prefix, m);
    forall k' | k' in r ensures |prefix| <= |k'| && k'[..|prefix|] == prefix && k'[|prefix|..] in m {
      var k :| k in m && k' == prefix + k;
      assert k'[|prefix|..] == k;
    }
  }

  /** Prefixing loses no entry: the collected map has as many entries as the extracted one, so no key collides. */
  lemma {:induction false} WithPrefixSize(prefix: string, m: map<string, string>)
    ensures |WithPrefix(prefix, m)| == |m|
    decreases |m|
  {
    if |m| > 0 {
      var k :| k in m;
      WithPrefixSize(prefix, m - {k});
      WithPrefixStep(prefix, m, k);
    }
  }

  /** The prefixed keys of `m` are those of `m` without `k`, plus `prefix + k`, which is not among them. */
  lemma WithPrefixStep(prefix: string, m: map<string, string>, k: string)
    requires k in m
    ensures WithPrefix(prefix, m).Keys == WithPrefix(prefix, m - {k}).Keys + {prefix + k}
    ensures prefix + k !in WithPrefix(prefix, m - {k})
  {
    var r, r' := WithPrefix(prefix, m), WithPrefix(prefix, m - {k});
    forall x ensures x in r.Keys <==> x in r'.Keys + {prefix + k} {
      if x in r.Keys {
        var j :| j in m && x == prefix + j;
        if j != k { assert j in m - {k}; }
      }
      if x in r'.Keys {
        var j :| j in m - {k} && x == prefix + j;
        assert j in m;
      }
    }
  }

  /** The extracted entries as added: prefixed only when the prefix is non-null and not blank. */
  function Prefixed(prefix: JString, m: map<string, string>): (r: map<string, string>)
    ensures prefix.None? || IsBlank(prefix.value) ==> r == m
    ensures prefix.Some? && !IsBlank(prefix.value) ==> r == WithPrefix(prefix.value, m)
  {
    if prefix.None? then m
    else
      TrimEmptyIffBlank(prefix.value);
      if Trim(prefix.value) != "" then WithPrefix(prefix.value, m) else m
  }

  /** The builder call one parameter contributes, if any. */
  function ParamCall(p: ParamMeta, arg: Arg): Option<BuilderCall> {
    match BindingOf(p)
    case Named(labels) =>
      var names := ContextsOrDefault(labels, p.name);
      Some(AndMappedCall(Some(names[|names| - 1]), ValueOf(arg)))
    case Extracted(decl) => Some(AndMappedAllCall(Prefixed(decl.prefix, ExtractorOf(decl)(arg))))
    case Plain => None
  }

  /**
   A parameter annotated `@LoggingContext` maps the last label it lists (its
   own name when it lists none) to `String.valueOf` of its argument, whether or
   not it also carries `@ExtractedContext`.
   */
  lemma NamedParam(p: ParamMeta, arg: Arg)
    requires p.logging.Some?
    ensures var key := if |p.logging.value| > 0 then p.logging.value[|p.logging.value| - 1] else p.name;
      ParamCall(p, arg) == Some(AndMappedCall(Some(key), ValueOf(arg)))
  {
  }

  /**
   A parameter annotated only `@ExtractedContext` maps the extractor's entries,
   every key carrying the non-blank prefix, or unchanged when the prefix is blank.
   */
  lemma ExtractedParam(p: ParamMeta, arg: Arg)
    requires p.logging.None? && p.extracted.Some?
    ensures ParamCall(p, arg).Some? && ParamCall(p, arg).value.AndMappedAllCall?
    ensures var entries := ParamCall(p, arg).value.entries;
      var prefix := p.extracted.value.prefix;
      var extracted := ExtractorOf(p.extracted.value)(arg);
      && (prefix.Some? && !IsBlank(prefix.value) ==>
            && entries == WithPrefix(prefix.value, extracted)
            && (forall k :: k in entries ==> |prefix.value| <= |k| && k[..|prefix.value|] == prefix.value)
            && |entries| == |extracted|)
      && (prefix.None? || IsBlank(prefix.value) ==> entries == extracted)
  {
    var prefix := p.extracted.value.prefix;
    if prefix.Some? && !IsBlank(prefix.value) {
      WithPrefixSize(prefix.value, ExtractorOf(p.extracted.value)(arg));
      WithPrefixKeys(prefix.value, ExtractorOf(p.extracted.value)(arg));
    }
  }

  /** The builder calls of the parameters, in declaration order; unannotated parameters contribute none. */
  function ParamCalls(params: seq<ParamMeta>, args: seq<Arg>): (r: seq<BuilderCall>)
    requires |params| == |args|
    ensures |r| <= |params|
    ensures forall i :: 0 <= i < |r| ==> !r[i].AndNestedCall?
    decreases |params|
  {
    if |params| == 0 then []
    else
      var here := ParamCall(params[0], args[0]);
      (if here.Some? then [here.value] else []) + ParamCalls(params[1..], args[1..])
  }

  /** Parameters without either annotation contribute no builder call. */
  lemma {:induction false} UnannotatedParamsIgnored(params: seq<ParamMeta>, args: seq<Arg>)
    requires |params| == |args|
    requires forall i :: 0 <= i < |params| ==> BindingOf(params[i]).Plain?
    ensures ParamCalls(params, args) == []
    decreases |params|
  {
    if |params| > 0 {
      assert forall i :: 0 <= i < |params[1..]| ==> params[1..][i] == params[i + 1];
      UnannotatedParamsIgnored(params[1..], args[1..]);
    }
  }

  /** Parameter calls of a split parameter list are those of the front followed by those of the back. */
  lemma {:induction false} ParamCallsAppend(ps: seq<ParamMeta>, qs: seq<ParamMeta>, xs: seq<Arg>, ys: seq<Arg>)
    requires |ps| == |xs| && |qs| == |ys|
    ensures ParamCalls(ps + qs, xs + ys) == ParamCalls(ps, xs) + ParamCalls(qs, ys)
    decreases |ps|
  {
    if |ps| == 0 {
      assert ps + qs == qs && xs + ys == ys;
    } else {
      assert (ps + qs)[1..] == ps[1..] + qs && (xs + ys)[1..] == xs[1..] + ys;
      ParamCallsAppend(ps[1..], qs, xs[1..], ys);
    }
  }

  /** The nested call an optional class or method annotation contributes. */
  function NestedCall(annotation: Option<seq<string>>, default: string): seq<BuilderCall> {
    if annotation.Some? then [AndNestedCall(Some(Lift(ContextsOrDefault(annotation.value, default))))] else []
  }

  /**
   The three `addLoggingContext` steps: the class's labels, then the method's,
   then each parameter's mapped entries. Every nested call precedes every mapped one.
   */
  function Calls(meta: MethodMeta, args: seq<Arg>): (r: seq<BuilderCall>)
    requires |meta.params| == |args|
    ensures forall i, j :: 0 <= i < j < |r| && r[j].AndNestedCall? ==> r[i].AndNestedCall?
  {
    var nested := NestedCall(meta.classContext, meta.className) + NestedCall(meta.methodContext, meta.methodName);
    var mapped := ParamCalls(meta.params, args);
    nested + mapped
  }

  /** An annotated class or method adds exactly its effective labels; an unannotated one adds none. */
  lemma NestedOfNestedCall(annotation: Option<seq<string>>, default: string)
    ensures NestedOf(NestedCall(annotation, default)) == Labels(annotation, default)
  {
    if annotation.Some? {
      var calls := NestedCall(annotation, default);
      PresentLift(ContextsOrDefault(annotation.value, default));
      assert NestedOf(calls) == Present(Lift(ContextsOrDefault(annotation.value, default))) + NestedOf(calls[1..]);
    }
  }

  /** Calls that are all mapped calls add no nested label. */
  lemma {:induction false} NestedOfNoNested(calls: seq<BuilderCall>)
    requires forall i :: 0 <= i < |calls| ==> !calls[i].AndNestedCall?
    ensures NestedOf(calls) == []
    decreases |calls|
  {
    if |calls| > 0 {
      NestedOfNoNested(calls[1..]);
    }
  }

  /**
   The nested labels an interception adds are the class's labels followed by
   the method's, each list in its declared order; parameters add none.
   */
  lemma NestedOrder(meta: MethodMeta, args: seq<Arg>)
    requires |meta.params| == |args|
    ensures NestedOf(Calls(meta, args)) == Labels(meta.classContext, meta.className) + Labels(meta.methodContext, meta.methodName)
  {
    var c, m, p := NestedCall(meta.classContext, meta.className), NestedCall(meta.methodContext, meta.methodName), ParamCalls(meta.params, args);
    NestedOfAppend(c + m, p);
    NestedOfAppend(c, m);
    NestedOfNestedCall(meta.classContext, meta.className);
    NestedOfNestedCall(meta.methodContext, meta.methodName);
    NestedOfNoNested(p);
  }

  /**
   The entries one parameter puts into the mapped context, read off its
   annotations: a `@LoggingContext` parameter maps its last label to the
   argument's string form (nothing when that label is blank); an
   `@ExtractedContext` parameter contributes the extracted entries, prefixed,
   whose keys are not blank; any other parameter contributes nothing.
   */
  function ParamEntry(p: ParamMeta, arg: Arg): map<string, string> {
    match BindingOf(p)
    case Named(labels) =>
      var names := ContextsOrDefault(labels, p.name);
      var key := names[|names| - 1];
      if IsBlank(key) then map[] else map[key := ValueOf(arg)]
    case Extracted(decl) => NonBlank(Prefixed(decl.prefix, ExtractorOf(decl)(arg)))
    case Plain => map[]
  }

  /** The entries all parameters put into the mapped context; a later parameter's entry for a key wins. */
  function ParamEntries(params: seq<ParamMeta>, args: seq<Arg>): map<string, string>
    requires |params| == |args|
    decreases |params|
  {
    if |params| == 0 then map[] else ParamEntry(params[0], args[0]) + ParamEntries(params[1..], args[1..])
  }

  /** The builder calls of the parameters store exactly the entries their annotations describe. */
  lemma {:induction false} MappedOfParamCalls(params: seq<ParamMeta>, args: seq<Arg>)
    requires |params| == |args|
    ensures MappedOf(ParamCalls(params, args)) == ParamEntries(params, args)
    decreases |params|
  {
    if |params| > 0 {
      var here := ParamCall(params[0], args[0]);
      var front: seq<BuilderCall> := if here.Some? then [here.value] else [];
      assert ParamCalls(params, args) == front + ParamCalls(params[1..], args[1..]);
      MappedOfAppend(front, ParamCalls(params[1..], args[1..]));
      MappedOfParamCalls(params[1..], args[1..]);
      assert MappedOf(front) == ParamEntry(params[0], args[0]) by {
        if here.Some? {
          assert MappedOf(front) == MappedOfCall(here.value) + map[];
          UnionEmpty(MappedOfCall(here.value));
        }
      }
    }
  }

  /** All the entries an interception's builder calls store come from the parameters. */
  lemma MappedOfCalls(meta: MethodMeta, args: seq<Arg>)
    requires |meta.params| == |args|
    ensures MappedOf(Calls(meta, args)) == ParamEntries(meta.params, args)
  {
    var c, m, p := NestedCall(meta.classContext, meta.className), NestedCall(meta.methodContext, meta.methodName), ParamCalls(meta.params, args);
    MappedOfAppend(c + m, p);
    MappedOfAppend(c, m);
    assert MappedOf(c) == map[] && MappedOf(m) == map[];
    UnionEmpty(map[]);
    MappedOfParamCalls(meta.params, args);
    UnionEmpty(ParamEntries(meta.params, args));
  }

  // ---------------------------------------------------------------------------
  // includeLoggingContext
  // ---------------------------------------------------------------------------

  /** How the intercepted call ended. */
  datatype Outcome = Returned(value: Arg) | Threw(thrown: Throwable)

  /** `joinPoint.proceed()`: the intercepted method, run against the diagnostic context it sees. */
  type Body = World -> (World, Outcome)

  /** The steps of an interception, in order. */
  datatype Event = Accumulated(call: BuilderCall) | ContextGot | Proceeded | ContextClosed

  /** The steps taken, the diagnostic context the call ran in, the one left afterwards, and the outcome. */
  datatype Interception = Interception(events: seq<Event>, scope: World, world: World, outcome: Outcome)

  /**
   try-with-resources: a throw from the body wins (anything `close()` throws is
   suppressed); after a normal return, a throw from `close()` surfaces instead.
   */
  function Surfaced(body: Outcome, closing: Signal): (r: Outcome)
    ensures body.Threw? ==> r == body
    ensures body.Returned? && closing.Completed? ==> r == body
    ensures body.Returned? && closing.Raised? ==> r == Threw(closing.thrown)
  {
    if body.Threw? then body
    else if closing.Raised? then Threw(closing.thrown)
    else body
  }

  /**
   `includeLoggingContext`: a non-method join point is simply proceeded. For a
   method, the builder calls are made on the looked-up builder, `get()`
   commits them, the body runs, and the context is closed; the body's throw,
   or its return value, passes through unless closing raised an `Error` after
   a normal return.
   */
  function Intercept(jp: JoinPoint, proceed: Body, providers: seq<Provider>,
                     iterate: map<string, string> -> seq<string>, w: World, assertions: bool): (r: Interception)
    requires ArgsMatch(jp) && Enumerates(iterate)
    ensures jp.signature.OtherSignature? ==> r.events == [Proceeded] && r.scope == w && (r.world, r.outcome) == proceed(w)
    ensures jp.signature.MethodSignature? ==>
      && |r.events| >= 3
      && r.events[|r.events| - 3..] == [ContextGot, Proceeded, ContextClosed]
      && (forall i :: 0 <= i < |r.events| - 3 ==> r.events[i].Accumulated?)
    ensures proceed(r.scope).1.Threw? ==> r.outcome == proceed(r.scope).1
    ensures r.outcome != proceed(r.scope).1 ==> r.outcome.Threw? && r.outcome.thrown.Error?
  {
    match jp.signature
    case OtherSignature =>
      var (after, outcome) := proceed(w);
      Interception([Proceeded], w, after, outcome)
    case MethodSignature(meta) =>
      var calls := Calls(meta, jp.args);
      var committed := Builders.Get(Replay(Lookup(providers), calls, iterate), w);
      var (after, outcome) := proceed(committed.world);
      var closed := Close(committed.context, after, assertions);
      var accumulated := seq(|calls|, i requires 0 <= i < |calls| => Accumulated(calls[i]));
      var events := accumulated + [ContextGot, Proceeded, ContextClosed];
      assert events[|events| - 3..] == [ContextGot, Proceeded, ContextClosed];
      Interception(events, committed.world, closed.world, Surfaced(outcome, closed.signal))
  }

  /** The builder an interception of a method commits. */
  function Accumulate(meta: MethodMeta, args: seq<Arg>, providers: seq<Provider>, iterate: map<string, string> -> seq<string>): Builder
    requires |meta.params| == |args| && Enumerates(iterate)
  {
    Replay(Lookup(providers), Calls(meta, args), iterate)
  }

  /** With no provider registered, the interception leaves the diagnostic context to the body alone. */
  lemma NoProviderIsTransparent(jp: JoinPoint, proceed: Body, iterate: map<string, string> -> seq<string>, w: World, assertions: bool)
    requires ArgsMatch(jp) && Enumerates(iterate)
    ensures var r := Intercept(jp, proceed, [], iterate, w, assertions);
      r.scope == w && r.world == proceed(w).0 && r.outcome == proceed(w).1
  {
  }

  /** For a method join point: the body runs in the context `get()` left, and the context is then closed. */
  lemma InterceptMethod(meta: MethodMeta, args: seq<Arg>, proceed: Body, providers: seq<Provider>,
                        iterate: map<string, string> -> seq<string>, w: World, assertions: bool)
    requires |meta.params| == |args| && Enumerates(iterate)
    ensures var r := Intercept(JoinPoint(MethodSignature(meta), args), proceed, providers, iterate, w, assertions);
      var committed := Builders.Get(Accumulate(meta, args, providers, iterate), w);
      var closed := Close(committed.context, proceed(committed.world).0, assertions);
      && r.scope == committed.world
      && r.world == closed.world
      && r.outcome == Surfaced(proceed(committed.world).1, closed.signal)
  {
  }

  /** With the Log4j 1.2 provider, the body runs with the class's and then the method's labels pushed. */
  lemma ScopeHasLabels(meta: MethodMeta, args: seq<Arg>, proceed: Body, providers: seq<Provider>,
                       iterate: map<string, string> -> seq<string>, w: World, assertions: bool)
    requires |meta.params| == |args| && |providers| > 0 && Enumerates(iterate)
    ensures Intercept(JoinPoint(MethodSignature(meta), args), proceed, providers, iterate, w, assertions).scope.ndc
         == w.ndc + Labels(meta.classContext, meta.className) + Labels(meta.methodContext, meta.methodName)
  {
    InterceptMethod(meta, args, proceed, providers, iterate, w, assertions);
    var b := Accumulate(meta, args, providers, iterate);
    assert b.Log4j12Builder? && b.state.nested == NestedOf(Calls(meta, args));
    NestedOrder(meta, args);
    var classLabels, methodLabels := Labels(meta.classContext, meta.className), Labels(meta.methodContext, meta.methodName);
    assert Builders.Get(b, w).world.ndc == w.ndc + (classLabels + methodLabels);
    AppendAssoc(w.ndc, classLabels, methodLabels);
  }

  /** With the Log4j 1.2 provider, the builder an interception commits holds exactly the parameters' entries. */
  lemma AccumulatedEntries(meta: MethodMeta, args: seq<Arg>, providers: seq<Provider>, iterate: map<string, string> -> seq<string>)
    requires |meta.params| == |args| && |providers| > 0 && Enumerates(iterate)
    ensures var b := Accumulate(meta, args, providers, iterate);
      b.Log4j12Builder? && b.state.mapped.values == ParamEntries(meta.params, args)
  {
    var start, calls := Lookup(providers), Calls(meta, args);
    assert start.Log4j12Builder? && start.state.mapped.values == map[];
    var b := Replay(start, calls, iterate);
    assert b.state.mapped.values == map[] + MappedOf(calls);
    MappedOfCalls(meta, args);
    UnionEmpty(ParamEntries(meta.params, args));
  }

  /**
   With the Log4j 1.2 provider, the body runs with every parameter's entries
   put over the MDC the call started with: each `@LoggingContext` parameter's
   value under its key and each `@ExtractedContext` parameter's prefixed
   entries, a later parameter winning a shared key.
   */
  lemma ScopeHasEntries(meta: MethodMeta, args: seq<Arg>, proceed: Body, providers: seq<Provider>,
                        iterate: map<string, string> -> seq<string>, w: World, assertions: bool)
    requires |meta.params| == |args| && |providers| > 0 && Enumerates(iterate)
    ensures Intercept(JoinPoint(MethodSignature(meta), args), proceed, providers, iterate, w, assertions).scope.mdc
         == w.mdc + ParamEntries(meta.params, args)
  {
    InterceptMethod(meta, args, proceed, providers, iterate, w, assertions);
    AccumulatedEntries(meta, args, providers, iterate);
  }

  /**
   With the Log4j 1.2 provider and a body that leaves the nested context as it
   found it: afterwards the nested context is back to its value before the
   call, every key the interception mapped is removed, and the body's outcome
   passes through unchanged.
   */
  lemma BalancedBodyRestores(meta: MethodMeta, args: seq<Arg>, proceed: Body, providers: seq<Provider>,
                             iterate: map<string, string> -> seq<string>, w: World, assertions: bool)
    requires |meta.params| == |args| && |providers| > 0 && Enumerates(iterate)
    requires var b := Accumulate(meta, args, providers, iterate);
      proceed(Builders.Get(b, w).world).0.ndc == Builders.Get(b, w).world.ndc
    ensures var r := Intercept(JoinPoint(MethodSignature(meta), args), proceed, providers, iterate, w, assertions);
      && r.world.ndc == w.ndc
      && r.world.mdc == proceed(r.scope).0.mdc - ParamEntries(meta.params, args).Keys
      && r.outcome == proceed(r.scope).1
  {
    InterceptMethod(meta, args, proceed, providers, iterate, w, assertions);
    var b := Accumulate(meta, args, providers, iterate);
    var committed := Builders.Get(b, w);
    AccumulatedEntries(meta, args, providers, iterate);
    Log4j12.CloseUndoesGet(b.state, w, proceed(committed.world).0, assertions);
  }
}

=== FILE: builders.dfy ===
/**
 `LogContext.Builder` as the interception engine sees it: the builder the
 service lookup hands out (the Log4j 1.2 builder, or `NO_OP_BUILDER` when no
 provider is registered), the three accumulation calls, `get()`, and the
 replay of a recorded sequence of accumulation calls.
 */
module Builders {
  import opened Java
  import opened LinkedMaps
  import opened ContextBuilder
  import opened Diagnostics
  import opened LogContexts
  import Log4j12

  /** A registered `LoggingContextServiceProvider`; the Log4j 1.2 one is the only kind modelled. */
  datatype Provider = Log4j12Provider

  /** A `LogContext.Builder`: the no-op builder, or a Log4j 1.2 builder with its pending context. */
  datatype Builder = NoOpBuilder | Log4j12Builder(state: ContextState)

  /** The builder a provider's `logContextBuilder()` creates: always a fresh, empty one. */
  function ProvidedBuilder(p: Provider): (r: Builder)
    ensures r.Log4j12Builder? && r.state.nested == [] && r.state.mapped.values == map[]
  {
    match p
    case Log4j12Provider => Log4j12Builder(Initial())
  }

  /** `Builder.builder()`: the first registered provider's builder, or `NO_OP_BUILDER` if there is none. */
  function Lookup(providers: seq<Provider>): (r: Builder)
    ensures r.NoOpBuilder? <==> |providers| == 0
    ensures |providers| > 0 ==> r == ProvidedBuilder(providers[0])
  {
    if |providers| == 0 then NoOpBuilder else ProvidedBuilder(providers[0])
  }

  /** `andNested(context...)`: `NO_OP_BUILDER` returns itself; the Log4j 1.2 builder records the non-null labels. */
  function AndNested(b: Builder, batch: Option<seq<JString>>): (r: Builder)
    ensures b.NoOpBuilder? || batch.None? ==> r == b
    ensures b.Log4j12Builder? ==> r.Log4j12Builder? && r.state.mapped == b.state.mapped
    ensures b.Log4j12Builder? && batch.Some? ==> r.state.nested == b.state.nested + Present(batch.value)
  {
    match b
    case NoOpBuilder => b
    case Log4j12Builder(s) => Log4j12Builder(ContextBuilder.AndNested(s, batch))
  }

  /** `andMapped(context, value)`: `NO_OP_BUILDER` returns itself; the Log4j 1.2 builder records the entry. */
  function AndMapped(b: Builder, key: JString, value: string): (r: Builder)
    ensures b.NoOpBuilder? || Rejected(key) ==> r == b
    ensures b.Log4j12Builder? ==> r.Log4j12Builder? && r.state.nested == b.state.nested
    ensures b.Log4j12Builder? && !Rejected(key) ==> r.state.mapped.values == b.state.mapped.values[key.value := value]
  {
    match b
    case NoOpBuilder => b
    case Log4j12Builder(s) => Log4j12Builder(ContextBuilder.AndMapped(s, key, value))
  }

  /** `andMapped(map)`, its entries visited in the iteration order `order`. */
  function AndMappedAll(b: Builder, m: map<string, string>, order: seq<string>): (r: Builder)
    ensures b.NoOpBuilder? ==> r == b
    ensures b.Log4j12Builder? ==> r.Log4j12Builder? && r.state.nested == b.state.nested
    ensures b.Log4j12Builder? ==> r.state.mapped.values == b.state.mapped.values + Accepted(m, order)
  {
    match b
    case NoOpBuilder => b
    case Log4j12Builder(s) => Log4j12Builder(ContextBuilder.AndMappedAll(s, m, order))
  }

  /**
   `get()`: `NO_OP_BUILDER` touches nothing and hands back a context that does
   nothing; the Log4j 1.2 builder commits its pending context.
   */
  function Get(b: Builder, w: World): (r: Committed)
    ensures b.NoOpBuilder? ==> r.world == w && r.context == NoOpContext
    ensures b.Log4j12Builder? ==> r.world.ndc == w.ndc + b.state.nested && r.world.mdc == w.mdc + b.state.mapped.values
  {
    match b
    case NoOpBuilder => Committed(NoOpContext, w)
    case Log4j12Builder(s) => Log4j12.Get(s, w)
  }

  /** `Builder.nestedContext(context...)`: the looked-up builder with the labels added. */
  function NestedContext(providers: seq<Provider>, batch: Option<seq<JString>>): (r: Builder)
    ensures |providers| == 0 ==> r == NoOpBuilder
    ensures |providers| > 0 ==> r.Log4j12Builder? && r.state.mapped.values == map[]
    ensures |providers| > 0 && batch.Some? ==> r.state.nested == Present(batch.value)
    ensures |providers| > 0 && batch.None? ==> r.state.nested == []
  {
    AndNested(Lookup(providers), batch)
  }

  /** `Builder.mappedContext(context, value)`: the looked-up builder with the one entry added. */
  function MappedContext(providers: seq<Provider>, key: JString, value: string): (r: Builder)
    ensures |providers| == 0 ==> r == NoOpBuilder
    ensures |providers| > 0 ==> r.Log4j12Builder? && r.state.nested == []
    ensures |providers| > 0 && !Rejected(key) ==> r.state.mapped.values == map[key.value := value]
    ensures |providers| > 0 && Rejected(key) ==> r.state.mapped.values == map[]
  {
    AndMapped(Lookup(providers), key, value)
  }

  /** `NO_OP_BUILDER` stays itself through any calls, and its context's `close()` completes without a trace. */
  lemma NoOpIsInert(batch: Option<seq<JString>>, key: JString, value: string, w: World, later: World, assertions: bool)
    ensures AndMapped(AndNested(NoOpBuilder, batch), key, value) == NoOpBuilder
    ensures Get(NoOpBuilder, w) == Committed(NoOpContext, w)
    ensures Close(Get(NoOpBuilder, w).context, later, assertions) == Closed(later, Completed)
  {
  }

  // ---------------------------------------------------------------------------
  // Recorded accumulation calls
  // ---------------------------------------------------------------------------

  /** One accumulation call on a builder. */
  datatype BuilderCall =
    | AndNestedCall(batch: Option<seq<JString>>)
    | AndMappedCall(key: JString, value: string)
    | AndMappedAllCall(entries: map<string, string>)

  /**
   Iterating over a Java map visits every one of its keys. An iteration order
   that is only a function of the map and enumerates all of it is the model of
   `Map.entrySet()` iteration.
   */
  ghost predicate Enumerates(iterate: map<string, string> -> seq<string>) {
    forall m: map<string, string> :: m.Keys <= set k | k in iterate(m)
  }

  /** The labels a sequence of calls adds to the nested context, in order. */
  function NestedOf(calls: seq<BuilderCall>): seq<string> {
    if |calls| == 0 then [] else NestedOfCall(calls[0]) + NestedOf(calls[1..])
  }

  /** The labels one call adds to the nested context: the non-null labels of a non-null `andNested` batch. */
  function NestedOfCall(call: BuilderCall): seq<string> {
    if call.AndNestedCall? && call.batch.Some? then Present(call.batch.value) else []
  }

  /** The entries whose key `andMapped` accepts: those with a non-blank key. */
  function NonBlank(m: map<string, string>): map<string, string> {
    map k | k in m && !IsBlank(k) :: m[k]
  }

  /** The entries one call stores in the mapped context. */
  function MappedOfCall(call: BuilderCall): map<string, string> {
    match call
    case AndNestedCall(_) => map[]
    case AndMappedCall(key, value) => if Rejected(key) then map[] else map[key.value := value]
    case AndMappedAllCall(entries) => NonBlank(entries)
  }

  /** The entries a sequence of calls stores in the mapped context; a later call's entry for a key wins. */
  function MappedOf(calls: seq<BuilderCall>): map<string, string> {
    if |calls| == 0 then map[] else MappedOfCall(calls[0]) + MappedOf(calls[1..])
  }

  /** Applies one call; `iterate` gives the iteration order of a map argument. */
  function Apply(b: Builder, call: BuilderCall, iterate: map<string, string> -> seq<string>): Builder {
    match call
    case AndNestedCall(batch) => AndNested(b, batch)
    case AndMappedCall(key, value) => AndMapped(b, key, value)
    case AndMappedAllCall(entries) => AndMappedAll(b, entries, iterate(entries))
  }

  /**
   The builder after a chain of calls. `NO_OP_BUILDER` stays itself; a Log4j
   1.2 builder stays one, its nested context grows by exactly the labels the
   calls add, in call order, and its mapped context takes every accepted entry
   of the calls, a later entry for a key overriding an earlier one.
   */
  function Replay(b: Builder, calls: seq<BuilderCall>, iterate: map<string, string> -> seq<string>): (r: Builder)
    requires Enumerates(iterate)
    ensures b.NoOpBuilder? ==> r == NoOpBuilder
    ensures b.Log4j12Builder? ==> r.Log4j12Builder? && r.state.nested == b.state.nested + NestedOf(calls)
    ensures b.Log4j12Builder? ==> r.state.mapped.values == b.state.mapped.values + MappedOf(calls)
    decreases |calls|
  {
    if |calls| == 0 then
      assert b.Log4j12Builder? ==> b.state.mapped.values + map[] == b.state.mapped.values;
      b
    else
      var next := Apply(b, calls[0], iterate);
      ApplyStep(b, calls[0], iterate);
      var r := Replay(next, calls[1..], iterate);
      if b.Log4j12Builder? then
        AppendAssoc(b.state.nested, NestedOfCall(calls[0]), NestedOf(calls[1..]));
        UnionAssoc(b.state.mapped.values, MappedOfCall(calls[0]), MappedOf(calls[1..]));
        r
      else r
  }

  /** One call adds the labels `NestedOf` and the entries `MappedOf` attribute to it. */
  lemma ApplyStep(b: Builder, call: BuilderCall, iterate: map<string, string> -> seq<string>)
    requires Enumerates(iterate)
    ensures b.NoOpBuilder? ==> Apply(b, call, iterate) == NoOpBuilder
    ensures b.Log4j12Builder? ==>
      && Apply(b, call, iterate).Log4j12Builder?
      && Apply(b, call, iterate).state.nested == b.state.nested + NestedOfCall(call)
      && Apply(b, call, iterate).state.mapped.values == b.state.mapped.values + MappedOfCall(call)
  {
    if b.Log4j12Builder? {
      var old_ := b.state.mapped.values;
      match call
      case AndNestedCall(_) =>
        assert old_ + map[] == old_;
      case AndMappedCall(key, value) =>
        if Rejected(key) {
          assert old_ + map[] == old_;
        } else {
          assert old_[key.value := value] == old_ + map[key.value := value];
        }
      case AndMappedAllCall(entries) =>
        assert entries.Keys <= set k | k in iterate(entries);
        assert Accepted(entries, iterate(entries)) == NonBlank(entries);
    }
  }

  /** Replaying a concatenation of call chains replays them one after the other. */
  lemma {:induction false} ReplayAppend(b: Builder, xs: seq<BuilderCall>, ys: seq<BuilderCall>, iterate: map<string, string> -> seq<string>)
    requires Enumerates(iterate)
    ensures Replay(b, xs + ys, iterate) == Replay(Replay(b, xs, iterate), ys, iterate)
    decreases |xs|
  {
    if |xs| == 0 {
      assert xs + ys == ys;
    } else {
      assert (xs + ys)[1..] == xs[1..] + ys;
      ReplayAppend(Apply(b, xs[0], iterate), xs[1..], ys, iterate);
    }
  }

  /** The nested labels of a concatenation of call chains are those of the first followed by those of the second. */
  lemma {:induction false} NestedOfAppend(xs: seq<BuilderCall>, ys: seq<BuilderCall>)
    ensures NestedOf(xs + ys) == NestedOf(xs) + NestedOf(ys)
    decreases |xs|
  {
    if |xs| == 0 {
      assert xs + ys == ys;
    } else {
      assert (xs + ys)[1..] == xs[1..] + ys;
      NestedOfAppend(xs[1..], ys);
    }
  }

  /** The entries of a concatenation of call chains are those of the first overridden by those of the second. */
  lemma {:induction false} MappedOfAppend(xs: seq<BuilderCall>, ys: seq<BuilderCall>)
    ensures MappedOf(xs + ys) == MappedOf(xs) + MappedOf(ys)
    decreases |xs|
  {
    if |xs| == 0 {
      assert xs + ys == ys;
      assert map[] + MappedOf(ys) == MappedOf(ys);
    } else {
      assert (xs + ys)[1..] == xs[1..] + ys;
      MappedOfAppend(xs[1..], ys);
      UnionAssoc(MappedOfCall(xs[0]), MappedOf(xs[1..]), MappedOf(ys));
    }
  }
}

=== FILE: context_builder.dfy ===
/**
 The accumulation half of a logging-context builder (`AbstractLogContextBuilder`):
 an ordered list of nested (NDC) labels and an insertion-ordered map of mapped
 (MDC) entries, filled in before anything touches the live diagnostic context.
 */
module ContextBuilder {
  import opened Java
  import opened LinkedMaps

  /** The pending context: `nestedContexts` and `mappedContextValues`. */
  datatype ContextState = ContextState(nested: seq<string>, mapped: LinkedMap)

  /** A freshly constructed builder holds no context at all. */
  function Initial(): (r: ContextState)
    ensures |r.nested| == 0 && |r.mapped.order| == 0 && r.mapped.values == map[]
  {
    ContextState([], Empty())
  }

  /**
   `andNested(String... context)`: the non-null labels of the batch are appended
   in order; a null batch changes nothing; the mapped entries are never touched.
   */
  function AndNested(s: ContextState, batch: Option<seq<JString>>): (r: ContextState)
    ensures r.mapped == s.mapped
    ensures batch.None? ==> r == s
    ensures |s.nested| <= |r.nested| && r.nested[..|s.nested|] == s.nested
    ensures forall i :: |s.nested| <= i < |r.nested| ==> batch.Some? && Some(r.nested[i]) in batch.value
  {
    match batch
    case None => s
    case Some(b) =>
      PresentSound(b);
      ContextState(s.nested + Present(b), s.mapped)
  }

  /** A batch without nulls is appended verbatim, after the labels already there. */
  lemma AndNestedAppends(s: ContextState, labels: seq<string>)
    ensures AndNested(s, Some(Lift(labels))).nested == s.nested + labels
  {
    PresentLift(labels);
  }

  /** A null inside a batch is skipped: the batch behaves like its two halves added one after the other. */
  lemma AndNestedSkipsNull(s: ContextState, front: seq<JString>, back: seq<JString>)
    ensures AndNested(s, Some(front + [None] + back)) == AndNested(AndNested(s, Some(front)), Some(back))
  {
    var nul: seq<JString> := [None];
    PresentAppend(front + nul, back);
    PresentAppend(front, nul);
    assert Present(nul) == [];
    assert Present(front + nul) == Present(front);
    assert Present(front + nul + back) == Present(front) + Present(back);
    AppendAssoc(s.nested, Present(front), Present(back));
  }

  /** The keys `andMapped` refuses: null, empty, or only characters that `trim` strips. */
  predicate Rejected(key: JString) {
    key.None? || IsBlank(key.value)
  }

  /**
   `andMapped(context, value)`: a null or blank key changes nothing; any other
   key is put into the insertion-ordered map. The nested labels are never touched.
   */
  function AndMapped(s: ContextState, key: JString, value: string): (r: ContextState)
    ensures r.nested == s.nested
    ensures Rejected(key) ==> r == s
    ensures !Rejected(key) ==> r.mapped == Put(s.mapped, key.value, value)
    ensures !Rejected(key) ==> r.mapped.values == s.mapped.values[key.value := value]
  {
    if key.None? then s
    else
      TrimEmptyIffBlank(key.value);
      PutValues(s.mapped, key.value, value);
      if Trim(key.value) != "" then ContextState(s.nested, Put(s.mapped, key.value, value)) else s
  }

  /** Repeating a key keeps only the later value, in the key's original position. */
  lemma AndMappedLastWriteWins(s: ContextState, key: string, v1: string, v2: string)
    ensures AndMapped(AndMapped(s, Some(key), v1), Some(key), v2) == AndMapped(s, Some(key), v2)
  {
    if !IsBlank(key) {
      PutOverwrites(s.mapped, key, v1, v2);
    }
  }

  /** Being a prefix is transitive. */
  lemma PrefixTrans(a: seq<string>, b: seq<string>, c: seq<string>)
    requires a <= b && b <= c
    ensures a <= c
  {
    assert c[..|a|] == c[..|b|][..|a|];
  }

  /** The entries of `m` that an `andMapped` fold visiting the keys `visited` accepts. */
  function Accepted(m: map<string, string>, visited: seq<string>): map<string, string> {
    map k | k in m && k in visited && !IsBlank(k) :: m[k]
  }

  /** The single entry for `k` that `andMapped(k, m.get(k))` accepts, if any. */
  function Single(m: map<string, string>, k: string): map<string, string> {
    if k in m && !IsBlank(k) then map[k := m[k]] else map[]
  }

  /** The accepted entries of a visit order split at its first key. */
  lemma AcceptedCons(m: map<string, string>, order: seq<string>)
    requires |order| > 0
    ensures Accepted(m, order) == Single(m, order[0]) + Accepted(m, order[1..])
  {
    forall k ensures k in order <==> k == order[0] || k in order[1..] {
      if k in order {
        var i :| 0 <= i < |order| && order[i] == k;
        if i > 0 { assert order[1..][i - 1] == k; }
      }
    }
  }

  /** One step of the fold adds at most the single accepted entry for its key. */
  lemma SingleStep(s: ContextState, m: map<string, string>, k: string)
    ensures (if k in m then AndMapped(s, Some(k), m[k]) else s).mapped.values == s.mapped.values + Single(m, k)
  {
    if k !in m {
      assert Single(m, k) == map[];
      assert s.mapped.values + map[] == s.mapped.values;
    } else if IsBlank(k) {
      assert AndMapped(s, Some(k), m[k]) == s;
      assert Single(m, k) == map[];
      assert s.mapped.values + map[] == s.mapped.values;
    } else {
      assert AndMapped(s, Some(k), m[k]).mapped == Put(s.mapped, k, m[k]);
      PutValues(s.mapped, k, m[k]);
      assert Single(m, k) == map[k := m[k]];
      assert s.mapped.values[k := m[k]] == s.mapped.values + map[k := m[k]];
    }
  }

  /** The empty map is a unit of map union. */
  lemma UnionEmpty(m: map<string, string>)
    ensures map[] + m == m && m + map[] == m
  {
  }

  /** Map union is associative. */
  lemma UnionAssoc(a: map<string, string>, b: map<string, string>, c: map<string, string>)
    ensures (a + b) + c == a + (b + c)
  {
  }

  /**
   `andMapped(Map<String, String>)`: `andMapped(k, v)` for every entry, in the
   map's iteration order `order` (keys of `order` that are not in `m` are skipped).
   */
  function AndMappedAll(s: ContextState, m: map<string, string>, order: seq<string>): (r: ContextState)
    ensures r.nested == s.nested
    ensures r.mapped.values == s.mapped.values + Accepted(m, order)
    ensures s.mapped.order <= r.mapped.order
    decreases |order|
  {
    if |order| == 0 then
      assert Accepted(m, order) == map[];
      s
    else
      var s1 := if order[0] in m then AndMapped(s, Some(order[0]), m[order[0]]) else s;
      SingleStep(s, m, order[0]);
      AcceptedCons(m, order);
      UnionAssoc(s.mapped.values, Single(m, order[0]), Accepted(m, order[1..]));
      var r := AndMappedAll(s1, m, order[1..]);
      PrefixTrans(s.mapped.order, s1.mapped.order, r.mapped.order);
      r
  }

  /** When `order` enumerates the whole map, every non-blank key of `m` ends up mapped to its value. */
  lemma AndMappedAllCoversMap(s: ContextState, m: map<string, string>, order: seq<string>)
    requires forall k :: k in m ==> k in order
    ensures forall k :: k in m && !IsBlank(k) ==>
      k in AndMappedAll(s, m, order).mapped.values && AndMappedAll(s, m, order).mapped.values[k] == m[k]
    ensures forall k :: k in AndMappedAll(s, m, order).mapped.values && k !in s.mapped.values ==> k in m && !IsBlank(k)
  {
  }

  /**
   The mapped values `andMapped(map)` leaves do not depend on the map's
   iteration order: any two orders that visit the same keys of the map give
   the same values.
   */
  lemma AndMappedAllOrderFree(s: ContextState, m: map<string, string>, o1: seq<string>, o2: seq<string>)
    requires forall k :: k in m ==> (k in o1 <==> k in o2)
    ensures AndMappedAll(s, m, o1).mapped.values == AndMappedAll(s, m, o2).mapped.values
  {
    assert Accepted(m, o1) == Accepted(m, o2);
  }
}

=== FILE: diagnostics.dfy ===
/**
 The live diagnostic context of one thread, as the Log4j 1.2 `NDC` and `MDC`
 classes present it, threaded explicitly through the model as a value: the
 nested-context stack (top at the end), the mapped-context table, and a log
 of every primitive operation performed on them, so that ordering claims can
 be stated about it.
 */
module Diagnostics {
  import opened Java

  /** How a `close()` call ended. */
  datatype Signal = Completed | Raised(thrown: Throwable) {
    /** True iff the call threw something `catch (Exception e)` would catch. */
    predicate IsException() {
      Raised? && thrown.Exception?
    }
  }

  /**
   The `AutoCloseable`s the core puts into a log context: an `NDCCloseable`,
   the lambda that removes one MDC key, or any other closeable (identified by
   `id`) whose `close()` ends as `signal` without touching the diagnostic context.
   */
  datatype Closeable =
    | NdcCloseable(nestedContext: string)
    | MdcRemover(key: string)
    | Opaque(id: nat, signal: Signal)

  /** One primitive operation on the diagnostic context, or the start of one `close()` call. */
  datatype Op =
    | Pushed(nested: string)
    | Popped(nested: string)
    | Stored(key: string, value: string)
    | Removed(key: string)
    | CloseCalled(target: Closeable)

  /** What `NDC.pop()` returns for a stack: its top label, or "" when it is empty. */
  function Top(ndc: seq<string>): string {
    if |ndc| == 0 then "" else ndc[|ndc| - 1]
  }

  /** The per-thread diagnostic context together with the history of operations on it. */
  datatype World = World(ndc: seq<string>, mdc: map<string, string>, log: seq<Op>) {

    /** `NDC.push(nested)`. */
    function Push(nested: string): (r: World)
      ensures r.ndc == ndc + [nested] && r.mdc == mdc && r.log == log + [Pushed(nested)]
    {
      World(ndc + [nested], mdc, log + [Pushed(nested)])
    }

    /** `NDC.pop()`: removes and returns the top label; on an empty stack it returns the empty string. */
    function Pop(): (r: (World, string))
      ensures r.1 == Top(ndc)
      ensures |ndc| > 0 ==> r.0.ndc == ndc[..|ndc| - 1]
      ensures |ndc| == 0 ==> r.0.ndc == ndc
      ensures r.0.mdc == mdc && r.0.log == log + [Popped(r.1)]
    {
      if |ndc| == 0 then (World(ndc, mdc, log + [Popped("")]), "")
      else
        var top := ndc[|ndc| - 1];
        (World(ndc[..|ndc| - 1], mdc, log + [Popped(top)]), top)
    }

    /** `MDC.put(key, value)`. */
    function Put(key: string, value: string): (r: World)
      ensures r.ndc == ndc && r.mdc == mdc[key := value] && r.log == log + [Stored(key, value)]
    {
      World(ndc, mdc[key := value], log + [Stored(key, value)])
    }

    /** `MDC.remove(key)`: the key is gone afterwards, whether or not it was there. */
    function Remove(key: string): (r: World)
      ensures r.ndc == ndc && r.mdc == mdc - {key} && r.log == log + [Removed(key)]
    {
      World(ndc, mdc - {key}, log + [Removed(key)])
    }

    /** Records that `close()` was invoked on `c`. */
    function Note(c: Closeable): (r: World)
      ensures r.ndc == ndc && r.mdc == mdc && r.log == log + [CloseCalled(c)]
    {
      World(ndc, mdc, log + [CloseCalled(c)])
    }
  }

  /** The closeables whose `close()` was invoked, in invocation order, read off a log. */
  function Invoked(log: seq<Op>): (r: seq<Closeable>)
    ensures |r| <= |log|
  {
    if |log| == 0 then []
    else Invoked(log[..|log| - 1]) + (if log[|log| - 1].CloseCalled? then [log[|log| - 1].target] else [])
  }

  /** Reading invocations off a log distributes over concatenation. */
  lemma {:induction false} InvokedAppend(a: seq<Op>, b: seq<Op>)
    ensures Invoked(a + b) == Invoked(a) + Invoked(b)
    decreases |b|
  {
    if |b| == 0 {
      assert a + b == a;
    } else {
      assert (a + b)[..|a + b| - 1] == a + b[..|b| - 1];
      InvokedAppend(a, b[..|b| - 1]);
    }
  }
}

=== FILE: java.dfy ===
/**
 The small part of the Java platform the logging-context core leans on:
 nullable references, the two families of throwables that `catch (Exception e)`
 tells apart, `String.trim`, `String.valueOf`, filtering out nulls and
 `Collections.reverse`.
 */
module Java {

  /** A nullable reference: `None` stands for Java's `null`. */
  datatype Option<+T> = None | Some(value: T)

  /** A nullable `java.lang.String`. */
  type JString = Option<string>

  /** A thrown `Throwable`: `catch (Exception e)` catches the first kind, never the second. */
  datatype Throwable =
    | Exception(name: string, message: string)
    | Error(name: string, message: string)

  /** A call that either produces a value or throws. */
  datatype Result<+T> = Success(value: T) | Failure(thrown: Throwable)

  /** What `requireNonNull(x, message)` throws for a null `x`. */
  function NullPointer(message: string): Throwable {
    Exception("NullPointerException", message)
  }

  /** A runtime argument of an intercepted call: `null` or an object shown by its `toString()`. */
  datatype Arg = NullArg | Obj(shown: string)

  /** `String.valueOf(Object)`: the literal text "null" for a null reference. */
  function ValueOf(a: Arg): (r: string)
    ensures a.Obj? ==> r == a.shown
    ensures a.NullArg? ==> r == "null"
  {
    match a
    case NullArg => "null"
    case Obj(s) => s
  }

  // ---------------------------------------------------------------------------
  // Nulls in sequences
  // ---------------------------------------------------------------------------

  /** Every element wrapped as a non-null reference. */
  function Lift<T>(xs: seq<T>): (r: seq<Option<T>>)
    ensures |r| == |xs|
    ensures forall i :: 0 <= i < |xs| ==> r[i] == Some(xs[i])
  {
    seq(|xs|, i requires 0 <= i < |xs| => Some(xs[i]))
  }

  /** The non-null elements, in their original order (`filter(Objects::nonNull)`). */
  function Present<T(==)>(s: seq<Option<T>>): (r: seq<T>)
    ensures |r| <= |s|
  {
    if |s| == 0 then []
    else if s[0].Some? then [s[0].value] + Present(s[1..])
    else Present(s[1..])
  }

  /** Filtering invents nothing: every kept element is a non-null element of the input. */
  lemma {:induction false} PresentSound<T>(s: seq<Option<T>>)
    ensures forall i :: 0 <= i < |Present(s)| ==> Some(Present(s)[i]) in s
  {
    if |s| > 0 {
      PresentSound(s[1..]);
      forall i | 0 <= i < |Present(s)| ensures Some(Present(s)[i]) in s {
        if s[0].Some? && i == 0 {
        } else {
          var k := if s[0].Some? then i - 1 else i;
          assert Present(s)[i] == Present(s[1..])[k];
          assert Some(Present(s[1..])[k]) in s[1..];
        }
      }
    }
  }

  /** Filtering loses nothing: every non-null element of the input is kept. */
  lemma {:induction false} PresentComplete<T>(s: seq<Option<T>>)
    ensures forall i :: 0 <= i < |s| && s[i].Some? ==> s[i].value in Present(s)
  {
    if |s| > 0 {
      PresentComplete(s[1..]);
      forall i | 0 < i < |s| && s[i].Some? ensures s[i].value in Present(s) {
        assert s[i] == s[1..][i - 1];
      }
    }
  }

  /** Filtering distributes over concatenation, so a batch may be filtered piecewise. */
  lemma {:induction false} PresentAppend<T>(a: seq<Option<T>>, b: seq<Option<T>>)
    ensures Present(a + b) == Present(a) + Present(b)
  {
    if |a| == 0 {
      assert a + b == b;
    } else {
      assert (a + b)[0] == a[0];
      assert (a + b)[1..] == a[1..] + b;
      PresentAppend(a[1..], b);
      if a[0].Some? {
        assert Present(a + b) == [a[0].value] + (Present(a[1..]) + Present(b));
      }
    }
  }

  /** Filtering a sequence with no nulls gives the sequence back. */
  lemma {:induction false} PresentLift<T>(xs: seq<T>)
    ensures Present(Lift(xs)) == xs
  {
    if |xs| > 0 {
      assert Lift(xs)[1..] == Lift(xs[1..]);
      PresentLift(xs[1..]);
    }
  }

  /** Concatenation is associative; stated once so that long chains of appends can be regrouped cheaply. */
  lemma AppendAssoc<T>(a: seq<T>, b: seq<T>, c: seq<T>)
    ensures a + (b + c) == a + b + c
  {
  }

  // ---------------------------------------------------------------------------
  // Collections.reverse
  // ---------------------------------------------------------------------------

  /** The elements in the opposite order. */
  function Reverse<T>(s: seq<T>): (r: seq<T>)
    ensures |r| == |s|
    ensures forall i :: 0 <= i < |s| ==> r[i] == s[|s| - 1 - i]
  {
    if |s| == 0 then [] else Reverse(s[1..]) + [s[0]]
  }

  /** Reversing a concatenation reverses and swaps the two parts. */
  lemma ReverseAppend<T>(a: seq<T>, b: seq<T>)
    ensures Reverse(a + b) == Reverse(b) + Reverse(a)
  {
    var l, r := Reverse(a + b), Reverse(b) + Reverse(a);
    assert |l| == |r|;
    forall i | 0 <= i < |l| ensures l[i] == r[i] {
      if i < |b| {
        assert l[i] == (a + b)[|a| + |b| - 1 - i] == b[|b| - 1 - i];
      } else {
        assert l[i] == (a + b)[|a| + |b| - 1 - i] == a[|a| - 1 - (i - |b|)];
      }
    }
  }

  /** Reversal is an involution. */
  lemma ReverseReverse<T>(s: seq<T>)
    ensures Reverse(Reverse(s)) == s
  {
  }

  // ---------------------------------------------------------------------------
  // String.trim
  // ---------------------------------------------------------------------------

  /** A character `String.trim` strips: any code point up to and including the space. */
  predicate IsTrimmed(c: char) {
    c <= ' '
  }

  /** True iff `s.trim().isEmpty()` is meant: every character is one `trim` strips. */
  predicate IsBlank(s: string) {
    forall i :: 0 <= i < |s| ==> IsTrimmed(s[i])
  }

  /** Drops leading characters `<= ' '`, like the first loop of `String.trim`. */
  function TrimStart(s: string): (r: string)
    ensures |r| <= |s| && r == s[|s| - |r|..]
    ensures |r| > 0 ==> !IsTrimmed(r[0])
    ensures forall i :: 0 <= i < |s| - |r| ==> IsTrimmed(s[i])
  {
    if |s| > 0 && IsTrimmed(s[0]) then TrimStart(s[1..]) else s
  }

  /** Drops trailing characters `<= ' '`, like the second loop of `String.trim`. */
  function TrimEnd(s: string): (r: string)
    ensures |r| <= |s| && r == s[..|r|]
    ensures |r| > 0 ==> !IsTrimmed(r[|r| - 1])
    ensures forall i :: |r| <= i < |s| ==> IsTrimmed(s[i])
  {
    if |s| > 0 && IsTrimmed(s[|s| - 1]) then TrimEnd(s[..|s| - 1]) else s
  }

  /** `String.trim`: both ends stripped of characters `<= ' '`. */
  function Trim(s: string): (r: string)
    ensures exists i, j :: 0 <= i <= j <= |s| && r == s[i..j]
    ensures |r| > 0 ==> !IsTrimmed(r[0]) && !IsTrimmed(r[|r| - 1])
  {
    var t := TrimStart(s);
    var r := TrimEnd(t);
    assert r == s[|s| - |t|..|s| - |t| + |r|];
    r
  }

  /** `s.trim().isEmpty()` holds exactly for the blank strings. */
  lemma TrimEmptyIffBlank(s: string)
    ensures Trim(s) == "" <==> IsBlank(s)
  {
    if Trim(s) != "" {
      var r := Trim(s);
      assert !IsTrimmed(r[0]);
      var i, j :| 0 <= i <= j <= |s| && r == s[i..j];
      assert s[i] == r[0];
    }
  }
}

=== FILE: linked_map.dfy ===
/**
 An insertion-ordered string map with `java.util.LinkedHashMap` semantics: a
 key keeps the position of its first insertion, and putting it again only
 replaces its value.
 */
module LinkedMaps {

  /** No element occurs twice. */
  predicate Distinct(s: seq<string>) {
    forall i, j :: 0 <= i < j < |s| ==> s[i] != s[j]
  }

  /** The representation: keys in insertion order, and the key-to-value mapping. */
  datatype LinkedMapRep = LinkedMapRep(order: seq<string>, values: map<string, string>) {
    /** Each mapped key appears exactly once in the insertion order, and only mapped keys do. */
    predicate Valid() {
      && Distinct(order)
      && (forall k :: k in values ==> k in order)
      && (forall i :: 0 <= i < |order| ==> order[i] in values)
    }
  }

  type LinkedMap = m: LinkedMapRep | m.Valid() witness LinkedMapRep([], map[])

  /** `new LinkedHashMap<>()`. */
  function Empty(): (r: LinkedMap)
    ensures |r.order| == 0 && r.values == map[]
  {
    LinkedMapRep([], map[])
  }

  /**
   `map.put(k, v)`: afterwards `k` maps to `v` and every other key keeps its
   value; keys already present keep their positions, and a new key goes last.
   */
  function Put(m: LinkedMap, k: string, v: string): (r: LinkedMap)
    ensures k in r.values && r.values[k] == v
    ensures forall k' :: k' != k ==> (k' in r.values <==> k' in m.values)
    ensures forall k' :: k' != k && k' in m.values ==> r.values[k'] == m.values[k']
    ensures m.order <= r.order
    ensures |r.order| == |m.order| + (if k in m.values then 0 else 1)
  {
    if k in m.values then
      LinkedMapRep(m.order, m.values[k := v])
    else
      var r := LinkedMapRep(m.order + [k], m.values[k := v]);
      assert forall i :: 0 <= i < |m.order| ==> r.order[i] == m.order[i];
      r
  }

  /** Seen as a plain map, `put` is map update. */
  lemma PutValues(m: LinkedMap, k: string, v: string)
    ensures Put(m, k, v).values == m.values[k := v]
  {
  }

  /** A second put of an existing key changes its value and nothing else. */
  lemma PutOverwrites(m: LinkedMap, k: string, v1: string, v2: string)
    ensures Put(Put(m, k, v1), k, v2) == Put(m, k, v2)
  {
    var once := Put(m, k, v1);
    assert once.order == if k in m.values then m.order else m.order + [k];
    assert Put(once, k, v2) == LinkedMapRep(once.order, once.values[k := v2]);
    assert once.values[k := v2] == m.values[k := v2];
  }
}

=== FILE: log4j12.dfy ===
/**
 The Log4j 1.2 builder's commit (`Log4j12LogContextBuilder.get`): push every
 pending nested label, then put every pending mapped entry, and hand back a
 `MultiCloseableLogContext` whose undo actions run in the reverse order.
 */
module Log4j12 {
  import opened Java
  import opened LinkedMaps
  import opened ContextBuilder
  import opened Diagnostics
  import opened LogContexts

  // ---------------------------------------------------------------------------
  // The operations `get()` and its log context perform, as log fragments
  // ---------------------------------------------------------------------------

  /** `NDC.push` of each label, in order. */
  function PushLog(labels: seq<string>): seq<Op> {
    if |labels| == 0 then [] else [Pushed(labels[0])] + PushLog(labels[1..])
  }

  /** `MDC.put` of each key with its value, in order. */
  function PutLog(keys: seq<string>, values: map<string, string>): seq<Op>
    requires forall k :: k in keys ==> k in values
  {
    if |keys| == 0 then [] else [Stored(keys[0], values[keys[0]])] + PutLog(keys[1..], values)
  }

  /** Closing an `NDCCloseable` for each label, in order, each pop returning that label. */
  function PopLog(labels: seq<string>): seq<Op> {
    if |labels| == 0 then []
    else [CloseCalled(NdcCloseable(labels[0])), Popped(labels[0])] + PopLog(labels[1..])
  }

  /** Closing an MDC remover for each key, in order. */
  function RemoveLog(keys: seq<string>): seq<Op> {
    if |keys| == 0 then []
    else [CloseCalled(MdcRemover(keys[0])), Removed(keys[0])] + RemoveLog(keys[1..])
  }

  /** The labels popped off the nested context, in pop order. */
  function PoppedLabels(log: seq<Op>): seq<string> {
    if |log| == 0 then []
    else (if log[0].Popped? then [log[0].nested] else []) + PoppedLabels(log[1..])
  }

  /** Everything `get()` does to the diagnostic context: all pushes, then all puts in insertion order. */
  function CommitLog(s: ContextState): seq<Op> {
    PushLog(s.nested) + PutLog(s.mapped.order, s.mapped.values)
  }

  /** Everything closing the context does: removals in reverse insertion order, then pops in reverse push order. */
  function UndoLog(s: ContextState): seq<Op> {
    RemoveLog(Reverse(s.mapped.order)) + PopLog(Reverse(s.nested))
  }

  /** One `NDCCloseable` per label. */
  function NdcClosers(labels: seq<string>): (r: seq<Closeable>)
    ensures |r| == |labels| && forall i :: 0 <= i < |labels| ==> r[i] == NdcCloseable(labels[i])
  {
    seq(|labels|, i requires 0 <= i < |labels| => NdcCloseable(labels[i]))
  }

  /** One MDC remover per key. */
  function MdcRemovers(keys: seq<string>): (r: seq<Closeable>)
    ensures |r| == |keys| && forall i :: 0 <= i < |keys| ==> r[i] == MdcRemover(keys[i])
  {
    seq(|keys|, i requires 0 <= i < |keys| => MdcRemover(keys[i]))
  }

  // ---------------------------------------------------------------------------
  // get()
  // ---------------------------------------------------------------------------

  /** Pushes the labels one by one: the stack grows by exactly `labels`, in order. */
  function PushAll(w: World, labels: seq<string>): (r: World)
    ensures r.ndc == w.ndc + labels
    ensures r.mdc == w.mdc
    ensures r.log == w.log + PushLog(labels)
    decreases |labels|
  {
    if |labels| == 0 then w
    else
      var r := PushAll(w.Push(labels[0]), labels[1..]);
      assert labels == [labels[0]] + labels[1..];
      AppendAssoc(w.ndc, [labels[0]], labels[1..]);
      AppendAssoc(w.log, [Pushed(labels[0])], PushLog(labels[1..]));
      r
  }

  /** Puts the keys one by one, leaving the nested context alone. */
  function PutAll(w: World, keys: seq<string>, values: map<string, string>): (r: World)
    requires forall k :: k in keys ==> k in values
    ensures r.ndc == w.ndc
    ensures r.log == w.log + PutLog(keys, values)
    decreases |keys|
  {
    if |keys| == 0 then w
    else
      var r := PutAll(w.Put(keys[0], values[keys[0]]), keys[1..], values);
      AppendAssoc(w.log, [Stored(keys[0], values[keys[0]])], PutLog(keys[1..], values));
      r
  }

  /** After the puts each key holds its value, and every other key keeps its previous value. */
  lemma {:induction false} PutAllMdc(w: World, keys: seq<string>, values: map<string, string>)
    requires forall k :: k in keys ==> k in values
    ensures forall k :: k in PutAll(w, keys, values).mdc <==> k in w.mdc || k in keys
    ensures forall k :: k in keys ==> PutAll(w, keys, values).mdc[k] == values[k]
    ensures forall k :: k in w.mdc && k !in keys ==> PutAll(w, keys, values).mdc[k] == w.mdc[k]
    decreases |keys|
  {
    if |keys| > 0 {
      var next := w.Put(keys[0], values[keys[0]]);
      PutAllMdc(next, keys[1..], values);
      assert PutAll(w, keys, values) == PutAll(next, keys[1..], values);
      assert forall k :: k in keys <==> k == keys[0] || k in keys[1..];
    }
  }

  /**
   `Log4j12LogContextBuilder.get()`: the nested context grows by the pending
   labels, the mapped context takes every pending entry, the log shows all
   pushes before any put, and the returned context holds the undo actions
   last-added-first: the MDC removers in reverse insertion order, then the
   `NDCCloseable`s in reverse push order. The builder itself is left as it was.
   */
  function Get(s: ContextState, w: World): (r: Committed)
    ensures r.world.ndc == w.ndc + s.nested
    ensures r.world.mdc == w.mdc + s.mapped.values
    ensures r.world.log == w.log + CommitLog(s)
    ensures r.context == MultiCloseable(Lift(MdcRemovers(Reverse(s.mapped.order)) + NdcClosers(Reverse(s.nested))))
  {
    var pushed := PushAll(w, s.nested);
    var put := PutAll(pushed, s.mapped.order, s.mapped.values);
    var closeables := NdcClosers(s.nested) + MdcRemovers(s.mapped.order);
    UndoOrder(s.nested, s.mapped.order);
    PutAllStoresMap(pushed, s.mapped);
    AppendAssoc(w.log, PushLog(s.nested), PutLog(s.mapped.order, s.mapped.values));
    Committed(MultiCloseable(Lift(Reverse(closeables))), put)
  }

  /** Reversing "closers, then removers" gives the removers reversed, then the closers reversed. */
  lemma UndoOrder(labels: seq<string>, keys: seq<string>)
    ensures Reverse(NdcClosers(labels) + MdcRemovers(keys)) == MdcRemovers(Reverse(keys)) + NdcClosers(Reverse(labels))
  {
    ReverseAppend(NdcClosers(labels), MdcRemovers(keys));
    assert Reverse(MdcRemovers(keys)) == MdcRemovers(Reverse(keys));
    assert Reverse(NdcClosers(labels)) == NdcClosers(Reverse(labels));
  }

  /** Putting every key of an insertion-ordered map, in order, stores exactly that map. */
  lemma PutAllStoresMap(w: World, m: LinkedMap)
    ensures PutAll(w, m.order, m.values).mdc == w.mdc + m.values
  {
    var r := PutAll(w, m.order, m.values);
    PutAllMdc(w, m.order, m.values);
    var e := w.mdc + m.values;
    forall k ensures k in r.mdc <==> k in e {
      assert k in m.values <==> k in m.order;
    }
    forall k | k in r.mdc ensures r.mdc[k] == e[k] {
      assert k in m.values <==> k in m.order;
    }
    assert r.mdc == e;
  }

  /** `get()` does not consume the builder: a second call pushes and puts the same things again. */
  lemma GetRepeats(s: ContextState, w: World)
    ensures var again := Get(s, Get(s, w).world).world;
      && again.ndc == w.ndc + s.nested + s.nested
      && again.log == w.log + CommitLog(s) + CommitLog(s)
  {
  }

  // ---------------------------------------------------------------------------
  // Closing what get() returned
  // ---------------------------------------------------------------------------

  lemma LiftAppend(a: seq<Closeable>, b: seq<Closeable>)
    ensures Lift(a + b) == Lift(a) + Lift(b)
  {
  }

  /** Closing MDC removers deletes their keys, in order, and always completes. */
  lemma {:induction false} CloseRemovers(keys: seq<string>, w: World, assertions: bool)
    ensures CloseAll(Lift(MdcRemovers(keys)), w, assertions)
         == Closed(World(w.ndc, w.mdc - (set k | k in keys), w.log + RemoveLog(keys)), Completed)
    decreases |keys|
  {
    if |keys| > 0 {
      var cs, rest := Lift(MdcRemovers(keys)), keys[1..];
      assert cs[0] == Some(MdcRemover(keys[0]));
      assert cs[1..] == Lift(MdcRemovers(rest));
      var step := [CloseCalled(MdcRemover(keys[0])), Removed(keys[0])];
      var mid := World(w.ndc, w.mdc - {keys[0]}, w.log + step);
      assert CloseOne(MdcRemover(keys[0]), w, assertions) == Closed(mid, Completed);
      CloseAllHead(cs, w, assertions);
      CloseRemovers(rest, mid, assertions);
      KeysCons(keys);
      assert w.mdc - {keys[0]} - (set k | k in rest) == w.mdc - (set k | k in keys);
      AppendAssoc(w.log, step, RemoveLog(rest));
    }
  }

  /** Closing a list whose first element is present and completes continues with the rest of the list. */
  lemma CloseAllHead(cs: seq<Option<Closeable>>, w: World, assertions: bool)
    requires |cs| > 0 && cs[0].Some? && CloseOne(cs[0].value, w, assertions).signal.Completed?
    ensures CloseAll(cs, w, assertions) == CloseAll(cs[1..], CloseOne(cs[0].value, w, assertions).world, assertions)
  {
  }

  lemma KeysCons(keys: seq<string>)
    requires |keys| > 0
    ensures (set k | k in keys) == {keys[0]} + (set k | k in keys[1..])
  {
    forall k ensures k in keys <==> k == keys[0] || k in keys[1..] {
      if k in keys {
        var i :| 0 <= i < |keys| && keys[i] == k;
        if i > 0 { assert keys[1..][i - 1] == k; }
      }
    }
  }

  /**
   Closing `NDCCloseable`s whose labels sit on top of the stack, topmost first,
   pops exactly those labels, each pop returning its own closeable's label,
   so every assertion check passes and the close completes.
   */
  lemma {:induction false} ClosePoppers(labels: seq<string>, base: seq<string>, w: World, assertions: bool)
    requires w.ndc == base + Reverse(labels)
    ensures CloseAll(Lift(NdcClosers(labels)), w, assertions)
         == Closed(World(base, w.mdc, w.log + PopLog(labels)), Completed)
    decreases |labels|
  {
    if |labels| > 0 {
      var cs, rest := Lift(NdcClosers(labels)), labels[1..];
      assert cs[0] == Some(NdcCloseable(labels[0]));
      assert cs[1..] == Lift(NdcClosers(rest));
      assert Reverse(labels) == Reverse(rest) + [labels[0]];
      AppendAssoc(base, Reverse(rest), [labels[0]]);
      var mid := PopOwn(labels[0], base + Reverse(rest), w, assertions);
      CloseAllHead(cs, w, assertions);
      ClosePoppers(rest, base, mid, assertions);
      AppendAssoc(w.log, [CloseCalled(NdcCloseable(labels[0])), Popped(labels[0])], PopLog(rest));
    }
  }

  /** An `NDCCloseable` whose label is on top of the stack pops exactly that label and completes. */
  lemma PopOwn(nested: string, below: seq<string>, w: World, assertions: bool) returns (mid: World)
    requires w.ndc == below + [nested]
    ensures mid == World(below, w.mdc, w.log + [CloseCalled(NdcCloseable(nested)), Popped(nested)])
    ensures CloseOne(NdcCloseable(nested), w, assertions) == Closed(mid, Completed)
  {
    assert w.ndc[..|w.ndc| - 1] == below;
    mid := World(below, w.mdc, w.log + [CloseCalled(NdcCloseable(nested)), Popped(nested)]);
  }

  /** Closing `NDCCloseable`s never touches the mapped context, whatever is on the stack. */
  lemma {:induction false} PoppersKeepMdc(labels: seq<string>, w: World, assertions: bool)
    ensures CloseAll(Lift(NdcClosers(labels)), w, assertions).world.mdc == w.mdc
    decreases |labels|
  {
    if |labels| > 0 {
      var cs := Lift(NdcClosers(labels));
      assert cs[1..] == Lift(NdcClosers(labels[1..]));
      var first := CloseOne(NdcCloseable(labels[0]), w, assertions);
      PoppersKeepMdc(labels[1..], first.world, assertions);
    }
  }

  /**
   The round trip: if the nested context is as `get()` left it when the
   returned context is closed (whatever happened to the mapped context in
   between), closing completes, the nested context is back to its value before
   `get()`, every key the builder mapped is gone (a value it overwrote is not
   restored), and the operations are exactly the removals in reverse
   insertion order followed by the pops in reverse push order.
   */
  lemma CloseUndoesGet(s: ContextState, w: World, later: World, assertions: bool)
    requires later.ndc == Get(s, w).world.ndc
    ensures var r := Close(Get(s, w).context, later, assertions);
      && r.signal == Completed
      && r.world.ndc == w.ndc
      && r.world.mdc == later.mdc - s.mapped.values.Keys
      && r.world.log == later.log + UndoLog(s)
  {
    assert Get(s, w).context.closeables == UndoActions(s) by {
      LiftAppend(MdcRemovers(Reverse(s.mapped.order)), NdcClosers(Reverse(s.nested)));
    }
    CloseUndoActions(s, w.ndc, later, assertions);
  }

  /** The undo actions of a commit, as the list its log context holds. */
  function UndoActions(s: ContextState): seq<Option<Closeable>> {
    Lift(MdcRemovers(Reverse(s.mapped.order))) + Lift(NdcClosers(Reverse(s.nested)))
  }

  lemma CloseUndoActions(s: ContextState, base: seq<string>, later: World, assertions: bool)
    requires later.ndc == base + s.nested
    ensures CloseAll(UndoActions(s), later, assertions)
         == Closed(World(base, later.mdc - s.mapped.values.Keys, later.log + UndoLog(s)), Completed)
  {
    var removers, poppers := Lift(MdcRemovers(Reverse(s.mapped.order))), Lift(NdcClosers(Reverse(s.nested)));
    var mid := RemovalPhase(s, later, assertions);
    var fin := PopPhase(s, base, mid, assertions);
    CloseAllThen(removers, poppers, later, assertions, mid, fin);
    AppendAssoc(later.log, RemoveLog(Reverse(s.mapped.order)), PopLog(Reverse(s.nested)));
  }

  /** The removers of a commit delete all of its keys. */
  lemma RemovalPhase(s: ContextState, later: World, assertions: bool) returns (mid: World)
    ensures mid == World(later.ndc, later.mdc - s.mapped.values.Keys, later.log + RemoveLog(Reverse(s.mapped.order)))
    ensures CloseAll(Lift(MdcRemovers(Reverse(s.mapped.order))), later, assertions) == Closed(mid, Completed)
  {
    CloseRemovers(Reverse(s.mapped.order), later, assertions);
    ReverseKeys(s.mapped);
    mid := World(later.ndc, later.mdc - s.mapped.values.Keys, later.log + RemoveLog(Reverse(s.mapped.order)));
  }

  /** The `NDCCloseable`s of a commit pop its labels off the stack it left. */
  lemma PopPhase(s: ContextState, base: seq<string>, mid: World, assertions: bool) returns (fin: Closed)
    requires mid.ndc == base + s.nested
    ensures fin == Closed(World(base, mid.mdc, mid.log + PopLog(Reverse(s.nested))), Completed)
    ensures CloseAll(Lift(NdcClosers(Reverse(s.nested))), mid, assertions) == fin
  {
    ReverseReverse(s.nested);
    ClosePoppers(Reverse(s.nested), base, mid, assertions);
    fin := Closed(World(base, mid.mdc, mid.log + PopLog(Reverse(s.nested))), Completed);
  }

  lemma CloseAllThen(a: seq<Option<Closeable>>, b: seq<Option<Closeable>>, w: World, assertions: bool, mid: World, fin: Closed)
    requires CloseAll(a, w, assertions) == Closed(mid, Completed)
    requires CloseAll(b, mid, assertions) == fin
    ensures CloseAll(a + b, w, assertions) == fin
  {
    CloseAllAppend(a, b, w, assertions);
  }

  /** The keys of an insertion-ordered map, listed backwards, are still its keys. */
  lemma ReverseKeys(m: LinkedMap)
    ensures (set k | k in Reverse(m.order)) == m.values.Keys
  {
    forall k ensures k in Reverse(m.order) <==> k in m.order {
      if k in m.order {
        var i :| 0 <= i < |m.order| && m.order[i] == k;
        assert Reverse(m.order)[|m.order| - 1 - i] == k;
      }
    }
  }

  /**
   Whatever the nested context looks like when the context is closed, and even
   if a pop check then throws, every key the builder mapped is removed: the
   removers run before any `NDCCloseable` and cannot fail.
   */
  lemma CloseAlwaysRemovesKeys(s: ContextState, w: World, later: World, assertions: bool)
    ensures Close(Get(s, w).context, later, assertions).world.mdc == later.mdc - s.mapped.values.Keys
  {
    assert Get(s, w).context.closeables == UndoActions(s) by {
      LiftAppend(MdcRemovers(Reverse(s.mapped.order)), NdcClosers(Reverse(s.nested)));
    }
    var removers, poppers := Lift(MdcRemovers(Reverse(s.mapped.order))), Lift(NdcClosers(Reverse(s.nested)));
    var mid := RemovalPhase(s, later, assertions);
    CloseAllAppend(removers, poppers, later, assertions);
    PoppersKeepMdc(Reverse(s.nested), mid, assertions);
  }

  /** With nothing in between, `get()` followed by `close()` restores the nested context exactly. */
  lemma {:induction false} GetCloseRoundTrip(s: ContextState, w: World, assertions: bool)
    ensures var committed := Get(s, w);
      var r := Close(committed.context, committed.world, assertions);
      && r.signal == Completed
      && r.world.ndc == w.ndc
      && r.world.mdc == w.mdc - s.mapped.values.Keys
      && r.world.log == w.log + CommitLog(s) + UndoLog(s)
  {
    CloseUndoesGet(s, w, Get(s, w).world, assertions);
  }

  /** The pops of the undo log return the pushed labels in reverse push order: one pop per label. */
  lemma {:induction false} UndoPopsMirrorPushes(s: ContextState)
    ensures PoppedLabels(UndoLog(s)) == Reverse(s.nested)
  {
    RemoveLogPopsNothing(Reverse(s.mapped.order));
    PoppedLabelsAppend(RemoveLog(Reverse(s.mapped.order)), PopLog(Reverse(s.nested)));
    PopLogPops(Reverse(s.nested));
  }

  lemma {:induction false} RemoveLogPopsNothing(keys: seq<string>)
    ensures PoppedLabels(RemoveLog(keys)) == []
    decreases |keys|
  {
    if |keys| > 0 {
      RemoveLogPopsNothing(keys[1..]);
      PoppedLabelsAppend([CloseCalled(MdcRemover(keys[0])), Removed(keys[0])], RemoveLog(keys[1..]));
    }
  }

  lemma {:induction false} PopLogPops(labels: seq<string>)
    ensures PoppedLabels(PopLog(labels)) == labels
    decreases |labels|
  {
    if |labels| > 0 {
      PopLogPops(labels[1..]);
      PoppedLabelsAppend([CloseCalled(NdcCloseable(labels[0])), Popped(labels[0])], PopLog(labels[1..]));
    }
  }

  lemma {:induction false} PoppedLabelsAppend(a: seq<Op>, b: seq<Op>)
    ensures PoppedLabels(a + b) == PoppedLabels(a) + PoppedLabels(b)
    decreases |a|
  {
    if |a| == 0 {
      assert a + b == b;
    } else {
      assert (a + b)[1..] == a[1..] + b;
      PoppedLabelsAppend(a[1..], b);
    }
  }
}

=== FILE: log_context.dfy ===
/**
 Log contexts (`LogContext`) and their `close()`: the no-op context, a context
 wrapping one `AutoCloseable` (`LogContext.closeableLogContext`), and a context
 closing a list of them as one operation (`MultiCloseableLogContext`). Closing
 an `NDCCloseable` pops the nested context and checks the popped label.
 */
module LogContexts {
  import opened Java
  import opened Diagnostics

  /** A log context: what a builder's `get()` hands back, to be closed when the scope ends. */
  datatype LogContext =
    | NoOpContext
    | MultiCloseable(closeables: seq<Option<Closeable>>)
    | Wrapped(closeable: Closeable)

  /** The diagnostic context after a `close()` call, and how the call ended. */
  datatype Closed = Closed(world: World, signal: Signal)

  /** A log context returned by `get()`, and the diagnostic context after `get()`'s own updates. */
  datatype Committed = Committed(context: LogContext, world: World)

  /** `LogContext.closeableLogContext(closeable)`: a null closeable is rejected with a `NullPointerException`. */
  function CloseableLogContext(c: Option<Closeable>): (r: Result<LogContext>)
    ensures r.Failure? <==> c.None?
    ensures r.Failure? ==> r.thrown == NullPointer("closeable must not be null")
    ensures r.Success? ==> r.value.Wrapped? && r.value.closeable == c.value
  {
    match c
    case None => Failure(NullPointer("closeable must not be null"))
    case Some(x) => Success(Wrapped(x))
  }

  /** `new MultiCloseableLogContext(closeables)`: a null list is rejected with a `NullPointerException`. */
  function NewMultiCloseable(cs: Option<seq<Option<Closeable>>>): (r: Result<LogContext>)
    ensures r.Failure? <==> cs.None?
    ensures r.Failure? ==> r.thrown == NullPointer("closeables must not be null")
    ensures r.Success? ==> r.value.MultiCloseable? && r.value.closeables == cs.value
  {
    match cs
    case None => Failure(NullPointer("closeables must not be null"))
    case Some(xs) => Success(MultiCloseable(xs))
  }

  /**
   `NDCCloseable.close()`: pops the nested context exactly once; when assertions
   are enabled and the popped label is not this closeable's own label, an
   `AssertionError` is thrown after the pop.
   */
  function CloseNdc(nested: string, w: World, assertions: bool): (r: Closed)
    ensures r.world.mdc == w.mdc
    ensures |w.ndc| > 0 ==> r.world.ndc == w.ndc[..|w.ndc| - 1]
    ensures |w.ndc| == 0 ==> r.world.ndc == w.ndc
    ensures r.world.log == w.log + [CloseCalled(NdcCloseable(nested)), Popped(Top(w.ndc))]
    ensures r.signal.Completed? <==> !assertions || Top(w.ndc) == nested
    ensures r.signal.Raised? ==> r.signal.thrown.Error? && r.signal.thrown.name == "AssertionError"
  {
    var popped := w.Note(NdcCloseable(nested)).Pop();
    var context := popped.1;
    if assertions && nested != context then
      Closed(popped.0, Raised(Error("AssertionError", "unexpected context " + context + " removed instead of " + nested)))
    else
      Closed(popped.0, Completed)
  }

  /** `AutoCloseable.close()` on one element of a log context. */
  function CloseOne(c: Closeable, w: World, assertions: bool): (r: Closed)
    ensures w.log <= r.world.log
    ensures Invoked(r.world.log) == Invoked(w.log) + [c]
    ensures c.MdcRemover? ==> r.world.ndc == w.ndc && r.world.mdc == w.mdc - {c.key} && r.signal.Completed?
    ensures c.Opaque? ==> r.world.ndc == w.ndc && r.world.mdc == w.mdc && r.signal == c.signal
  {
    var r := match c
      case NdcCloseable(nested) => CloseNdc(nested, w, assertions)
      case MdcRemover(key) => Closed(w.Note(c).Remove(key), Completed)
      case Opaque(_, signal) => Closed(w.Note(c), signal);
    var effects := r.world.log[|w.log|..];
    assert r.world.log == w.log + effects;
    assert Invoked(effects) == [c] by {
      assert effects[..1] == [CloseCalled(c)];
      assert |effects| == 1 || (|effects| == 2 && !effects[1].CloseCalled?);
      if |effects| == 2 {
        assert effects[..|effects| - 1] == [CloseCalled(c)];
      }
    }
    InvokedAppend(w.log, effects);
    r
  }

  /**
   `MultiCloseableLogContext.close()`: closes the non-null elements in list
   order; an `Exception` from one element is suppressed and the loop goes on,
   while an `Error` escapes at once and the later elements stay unclosed.
   */
  function CloseAll(cs: seq<Option<Closeable>>, w: World, assertions: bool): (r: Closed)
    ensures w.log <= r.world.log
    ensures !r.signal.IsException()
    decreases |cs|
  {
    if |cs| == 0 then Closed(w, Completed)
    else if cs[0].None? then CloseAll(cs[1..], w, assertions)
    else
      var first := CloseOne(cs[0].value, w, assertions);
      if first.signal.Raised? && first.signal.thrown.Error? then first
      else CloseAll(cs[1..], first.world, assertions)
  }

  /** A close of a list that completes has invoked `close()` once on every non-null element, in list order. */
  lemma {:induction false} CloseAllInvokesAll(cs: seq<Option<Closeable>>, w: World, assertions: bool)
    ensures CloseAll(cs, w, assertions).signal.Completed? ==>
      Invoked(CloseAll(cs, w, assertions).world.log) == Invoked(w.log) + Present(cs)
    decreases |cs|
  {
    if |cs| > 0 {
      var r := CloseAll(cs, w, assertions);
      if cs[0].None? {
        CloseAllInvokesAll(cs[1..], w, assertions);
      } else {
        var first := CloseOne(cs[0].value, w, assertions);
        if !(first.signal.Raised? && first.signal.thrown.Error?) {
          CloseAllInvokesAll(cs[1..], first.world, assertions);
          assert Present(cs) == [cs[0].value] + Present(cs[1..]);
        }
      }
    }
  }

  /**
   A close of a list that ends in an `Error` has invoked `close()` on exactly
   the non-null elements up to and including the one that threw; the
   elements after it are never closed.
   */
  lemma {:induction false} CloseAllStopsAtError(cs: seq<Option<Closeable>>, w: World, assertions: bool)
    ensures CloseAll(cs, w, assertions).signal.Raised? ==>
      exists j :: 0 <= j < |cs| && cs[j].Some? &&
        Invoked(CloseAll(cs, w, assertions).world.log) == Invoked(w.log) + Present(cs[..j + 1])
    decreases |cs|
  {
    var r := CloseAll(cs, w, assertions);
    if |cs| > 0 && r.signal.Raised? {
      if cs[0].None? {
        CloseAllStopsAtError(cs[1..], w, assertions);
        ShiftErrorIndex(cs, w, CloseAll(cs[1..], w, assertions), Invoked(w.log));
      } else {
        var first := CloseOne(cs[0].value, w, assertions);
        if first.signal.Raised? && first.signal.thrown.Error? {
          PrefixCons(cs, 0);
          assert cs[0].Some? && Invoked(r.world.log) == Invoked(w.log) + Present(cs[..1]);
        } else {
          CloseAllStopsAtError(cs[1..], first.world, assertions);
          ShiftErrorIndex(cs, first.world, CloseAll(cs[1..], first.world, assertions), Invoked(w.log));
        }
      }
    }
  }

  /** Moves the index of the element that threw from `cs[1..]` to `cs`. */
  lemma ShiftErrorIndex(cs: seq<Option<Closeable>>, w: World, r: Closed, before: seq<Closeable>)
    requires |cs| > 0
    requires Invoked(w.log) == before + (if cs[0].Some? then [cs[0].value] else [])
    requires exists j ::
      0 <= j < |cs[1..]| && cs[1..][j].Some? && Invoked(r.world.log) == Invoked(w.log) + Present(cs[1..][..j + 1])
    ensures exists j :: 0 <= j < |cs| && cs[j].Some? && Invoked(r.world.log) == before + Present(cs[..j + 1])
  {
    var j :| 0 <= j < |cs[1..]| && cs[1..][j].Some? &&
      Invoked(r.world.log) == Invoked(w.log) + Present(cs[1..][..j + 1]);
    PrefixCons(cs, j + 1);
    assert cs[j + 1].Some? && Invoked(r.world.log) == before + Present(cs[..j + 2]);
  }

  /** The non-null elements of a prefix `cs[..n + 1]`, split at the head. */
  lemma PrefixCons(cs: seq<Option<Closeable>>, n: nat)
    requires n < |cs|
    ensures Present(cs[..n + 1]) == (if cs[0].Some? then [cs[0].value] else []) + Present(cs[1..][..n])
  {
    assert cs[..n + 1][1..] == cs[1..][..n];
  }

  /** Closing `a + b` is closing `a` and then, unless `a` ended in an `Error`, closing `b`. */
  lemma {:induction false} CloseAllAppend(a: seq<Option<Closeable>>, b: seq<Option<Closeable>>, w: World, assertions: bool)
    ensures CloseAll(a, w, assertions).signal.Completed? ==>
      CloseAll(a + b, w, assertions) == CloseAll(b, CloseAll(a, w, assertions).world, assertions)
    ensures CloseAll(a, w, assertions).signal.Raised? ==>
      CloseAll(a + b, w, assertions) == CloseAll(a, w, assertions)
    decreases |a|
  {
    if |a| == 0 {
      assert a + b == b;
    } else {
      assert (a + b)[1..] == a[1..] + b;
      if a[0].None? {
        CloseAllAppend(a[1..], b, w, assertions);
      } else {
        var first := CloseOne(a[0].value, w, assertions);
        if !(first.signal.Raised? && first.signal.thrown.Error?) {
          CloseAllAppend(a[1..], b, first.world, assertions);
        }
      }
    }
  }

  /**
   An `Error` from an element escapes: once the elements before it have been
   closed without an `Error`, an element whose `close()` throws an `Error` ends
   the whole close with that `Error`, and the elements after it are never closed.
   */
  lemma ErrorAborts(a: seq<Option<Closeable>>, x: Closeable, b: seq<Option<Closeable>>, w: World, assertions: bool)
    requires CloseAll(a, w, assertions).signal.Completed?
    requires var e := CloseOne(x, CloseAll(a, w, assertions).world, assertions);
      e.signal.Raised? && e.signal.thrown.Error?
    ensures CloseAll(a + [Some(x)] + b, w, assertions) == CloseOne(x, CloseAll(a, w, assertions).world, assertions)
  {
    CloseAllAppend(a, [Some(x)] + b, w, assertions);
    assert a + [Some(x)] + b == a + ([Some(x)] + b);
    assert ([Some(x)] + b)[0] == Some(x);
  }

  /**
   An `Exception` from an element is suppressed and the loop goes on: once the
   elements before it have been closed without an `Error`, an element whose
   `close()` throws an `Exception` is followed by closing the rest of the list
   from the context it left.
   */
  lemma ExceptionContinues(a: seq<Option<Closeable>>, x: Closeable, b: seq<Option<Closeable>>, w: World, assertions: bool)
    requires CloseAll(a, w, assertions).signal.Completed?
    requires CloseOne(x, CloseAll(a, w, assertions).world, assertions).signal.IsException()
    ensures CloseAll(a + [Some(x)] + b, w, assertions)
         == CloseAll(b, CloseOne(x, CloseAll(a, w, assertions).world, assertions).world, assertions)
  {
    CloseAllAppend(a, [Some(x)] + b, w, assertions);
    assert a + [Some(x)] + b == a + ([Some(x)] + b);
    assert ([Some(x)] + b)[0] == Some(x) && ([Some(x)] + b)[1..] == b;
  }

  /** The scenario of three closeables where the first and third throw an `Exception`: all three are closed and nothing escapes. */
  lemma ExceptionsAreSuppressed(w: World)
    ensures var cs := [Some(Opaque(1, Raised(Exception("Exception", "")))),
                       Some(Opaque(2, Completed)),
                       Some(Opaque(3, Raised(Exception("Exception", ""))))];
      && CloseAll(cs, w, false).signal == Completed
      && Invoked(CloseAll(cs, w, false).world.log) == Invoked(w.log) + Present(cs)
  {
    var cs := [Some(Opaque(1, Raised(Exception("Exception", "")))),
               Some(Opaque(2, Completed)),
               Some(Opaque(3, Raised(Exception("Exception", ""))))];
    CloseAllInvokesAll(cs, w, false);
  }

  /**
   `LogContext.close()` for each kind of context. The no-op context does
   nothing; a wrapped closeable is closed once with any `Exception`
   suppressed. No kind of context lets an `Exception` escape.
   */
  function Close(ctx: LogContext, w: World, assertions: bool): (r: Closed)
    ensures !r.signal.IsException()
    ensures ctx.NoOpContext? ==> r == Closed(w, Completed)
    ensures ctx.Wrapped? ==> Invoked(r.world.log) == Invoked(w.log) + [ctx.closeable]
    ensures ctx.Wrapped? && ctx.closeable.Opaque? && ctx.closeable.signal.IsException() ==> r.signal.Completed?
  {
    match ctx
    case NoOpContext => Closed(w, Completed)
    case MultiCloseable(cs) => CloseAll(cs, w, assertions)
    case Wrapped(c) =>
      var r := CloseOne(c, w, assertions);
      if r.signal.IsException() then Closed(r.world, Completed) else r
  }
}
